=== FILE: README.md ===
# runecast-state in Dafny

A Dafny model of the in-memory state core of runecast-state, a multiplayer
word-game server library. It covers five parts:

- the player location state machine (`src/state/player.rs`): five locations, ten events, and a total transition function that either moves the player or rejects the event with a reason;
- connection continuity (`src/state/connection.rs`): per-connection sequence numbers, the replay buffer pruned by acknowledgements, the reconnection grace window, heartbeat liveness, and the registry that indexes connections by player id and by session token, with its stale-connection sweep;
- lobbies (`src/state/lobby.rs`): capacity and duplicate checks, host election and transfer, ready flags, and the registry with its channel, invite-code and player indexes;
- games (`src/state/game.rs`): the status machine, letter scoring, grid bounds and adjacency, the roster and turn cycle, final scores, used words, and the game registry;
- the coordinator (`src/state/mod.rs`): lazily created per-player state machines and the periodic cleanup that sweeps all three registries and drives swept players to `Disconnected`.

Every operation is a pure function over immutable datatypes, or a method when
it iterates over a map. Time is an explicit argument `now: nat` in whole
seconds on a monotonic clock, so the model never reads a clock. The durations
are 60 s of reconnection grace, a 30 s heartbeat interval and a 45 s heartbeat
timeout. Hash-map iteration order is modelled as an arbitrary choice from the
remaining keys (`Common.Pick`). So every result list is specified by its
members, as a set, and by having no duplicates.

Files: `common.dfy` (Option, Result, Outcome, Distinct, Pick), `ascii.dfy`
(ASCII case mapping), `player.dfy`, `connection.dfy`, `lobby.dfy`, `game.dfy`,
`app_state.dfy`.

Some behaviours of the code are easy to misread, and the model keeps them as written:

- `acknowledge` does not clamp. `ack_seq` becomes the incoming value, so a smaller acknowledgement lowers it (connection.rs:191-195). `Connections.LowerAckResurrectsNothing` shows that `ack_seq` goes back down while no pruned message comes back.
- From `Spectating`, `JoinGame` moves the player into the game named by the event, which need not be the game being watched (player.rs:251-254; `Player.JoinGameFromSpectatingUsesEventGame`).
- `ConnectionManager::add` never removes a player's previous session token. That token then resolves to the new connection (connection.rs:241-245; `Connections.ReAddKeepsStaleToken`).
- `disconnect_with_grace` opens a fresh grace window whatever the previous status, `Expired` included (`Connections.DisconnectWithGrace`).
- `LobbyManager::remove_player` drops the player's index entry before it looks the lobby up. The entry therefore goes even when the lobby or the membership is missing (`Lobbies.RemovePlayer`).

## Model

| member | source | states |
|---|---|---|
| Player.IsInLobby | src/state/player.rs:71-77 | being in a lobby (waiting, playing or spectating) implies being connected |
| Player.IsInGame | src/state/player.rs:79-82 | playing or spectating implies being in the game's lobby |
| Player.IsPlaying | src/state/player.rs:84-87 | playing implies being in a game and not spectating |
| Player.IsSpectating | src/state/player.rs:89-92 | spectating implies being in a game |
| Player.LobbyIdOf | src/state/player.rs:94-102 | a lobby id is present exactly when the player is in a lobby, and it is the location's own lobby id |
| Player.IsConnected | src/state/player.rs:66-68 | connected exactly when `Disconnect` is accepted, and exactly when `Connect` is refused |
| Player.GameIdOf | src/state/player.rs:104-109 | a game id is present exactly when the player plays or spectates, and it is the location's own game id |
| Player.Transition | src/state/player.rs:204-300 | the result is `Ok(t)` exactly when `Step(loc, e, t)` holds in the independent table of legal moves; a rejection carries the original location and event |
| Player.NewState | src/state/player.rs:173-177 | a fresh state is disconnected, with no lobby id and no game id |
| Player.At | src/state/player.rs:180-182 | the restored state is at exactly the given location; restoring `Disconnected` gives a fresh state |
| Player.Apply | src/state/player.rs:190-195 | success is a legal move of the table; a rejection carries `from` and `event`, and then no legal move exists |
| Player.ApplyMut | src/state/player.rs:198-201 | a rejected event leaves the state unchanged and reports `from` and `event`; it succeeds exactly when `apply` does, with the same new state |
| Player.ConnectRule | src/state/player.rs:216-217 | `Connect` succeeds exactly from `Disconnected`, and then yields `Connected` |
| Player.DisconnectRule | src/state/player.rs:220-221 | `Disconnect` is rejected exactly from `Disconnected`; from anywhere else it yields `Disconnected` |
| Player.DisconnectAlwaysLands | src/state/player.rs:219-221 | applying `Disconnect` in place always ends at `Disconnected`, whether accepted or rejected |
| Player.IdsPreserved | src/state/player.rs:238-296 | StartGame, LeaveGame, BecomePlayer and BecomeSpectator keep the lobby id; BecomePlayer and BecomeSpectator keep the game id too |
| Player.SpectateFromConnected | src/state/player.rs:263-270 | spectating straight from `Connected` gives the placeholder lobby "spectate-" + game id |
| Player.JoinGameFromSpectatingUsesEventGame | src/state/player.rs:251-254 | joining a game while spectating keeps the lobby but takes the event's game id |
| Player.LobbyGameScenario | src/state/player.rs:377-402 | Connect, JoinLobby("lobby-1"), StartGame("game-1") reach InGame(lobby-1, game-1); LeaveGame returns to the lobby; a second JoinLobby is rejected with "Already in a lobby" and nothing changes |
| Connections.IsExpired | src/state/connection.rs:84-98 | at any time a status is exactly one of connected, reconnectable and expired |
| Connections.IsConnected | src/state/connection.rs:79-81 | a live connection is reconnectable at no time |
| Connections.IsReconnectable | src/state/connection.rs:84-89 | disconnected with the grace deadline still ahead; its laws over time are in `Connections.GraceWindowCloses` |
| Connections.GraceWindowCloses | src/state/connection.rs:84-98 | the grace window only closes: reconnectable at a time means reconnectable at every earlier time, expired stays expired, and a disconnected status past its window is expired |
| Connections.Retain | src/state/connection.rs:194 | the kept messages are exactly those numbered above the bound, never more than before, and stay ascending |
| Connections.RetainIsSuffix | src/state/connection.rs:194 | on an ascending buffer the kept messages are a suffix, and every dropped one is numbered at most the bound |
| Connections.NewConnection | src/state/connection.rs:111-134 | a new connection is connected with the given player id, user id, name, avatar and token and no envelope; all three timestamps are now; both counters are 0 and the buffer is empty and valid; its heartbeat times out exactly once more than 45 s have passed |
| Connections.DisconnectWithGrace | src/state/connection.rs:142-148 | the status becomes `Disconnected` since `now`, reconnectable exactly before `now + grace` and expired at once iff the grace is 0; whatever the prior status, no other field changes |
| Connections.Disconnect | src/state/connection.rs:137-139 | with the default 60 s window: reconnectable now, expired exactly from `now + 60` on, nothing else changes |
| Connections.Reconnect | src/state/connection.rs:151-171 | succeeds exactly when not expired; from `Connected` it replays nothing and refreshes activity only; inside the window it becomes connected, replays the whole buffer, stamps activity and heartbeat, and changes no other field (id, token, counters and buffer stay); a failure leaves the connection unchanged |
| Connections.Expire | src/state/connection.rs:174-177 | the connection is expired at every time, can never reconnect, and its buffer is empty; nothing else changes |
| Connections.Touch | src/state/connection.rs:180-183 | only the activity time changes, so heartbeat liveness is unaffected |
| Connections.Heartbeat | src/state/connection.rs:185-188 | stamps both the heartbeat and the activity time with now, so no heartbeat timeout for the next 45 s; every other field is unchanged |
| Connections.IsHeartbeatTimeout | src/state/connection.rs:209-212 | a heartbeat timeout only ever concerns a live connection: it is then neither reconnectable nor expired |
| Connections.Acknowledge | src/state/connection.rs:191-195 | `ack_seq` becomes the ack exactly; the remaining buffer is exactly the old messages numbered above it; every other field is unchanged; a valid buffer stays valid |
| Connections.Send | src/state/connection.rs:198-206 | returns the old `send_seq + 1`, appends exactly one entry under it, and that number is above every buffered number; every other field is unchanged |
| Connections.MessagesSince | src/state/connection.rs:220-222 | the result is exactly the buffered messages numbered above the bound, and on a valid buffer an ascending suffix of it |
| Connections.SendEach | src/state/connection.rs:198-206 | successive sends return consecutive numbers and extend the buffer in order, each new entry holding its number, its message and the send time |
| Connections.SendsCountFromOne | src/state/connection.rs:389-398 | from `send_seq = 0`, the i-th send returns i + 1 |
| Connections.AcknowledgePrunesPrefix | src/state/connection.rs:191-195 | on a valid buffer, acknowledging cuts off a prefix numbered at most the ack |
| Connections.LowerAckResurrectsNothing | src/state/connection.rs:191-195 | a later, smaller ack lowers `ack_seq` but leaves the buffer as the larger ack left it |
| Connections.ThreeSends | src/state/connection.rs:389-399 | three sends on an empty buffer return 1, 2, 3 and buffer the messages in that order |
| Connections.ReplayScenario | src/state/connection.rs:377-420 | reconnecting inside the window replays all three messages; after acknowledging 2 only message 3; a zero window is expired at once and reconnecting fails |
| Connections.EmptyManager | src/state/connection.rs:236-238 | an empty registry is consistent |
| Connections.Get | src/state/connection.rs:248-250 | found exactly when the player id is stored, and it is the stored connection |
| Connections.GetBySession | src/state/connection.rs:258-262 | found exactly when the token resolves to a stored connection; in a consistent registry that connection carries the token |
| Connections.Add | src/state/connection.rs:241-245 | afterwards the connection is found by id and by token; other ids keep their connections and other tokens keep their index entries; a fresh player with a fresh token keeps the registry consistent |
| Connections.ReAddKeepsStaleToken | src/state/connection.rs:241-245 | re-adding a player under a new token leaves the old token resolving to the new connection, and the registry inconsistent |
| Connections.Remove | src/state/connection.rs:273-280 | returns the stored connection, drops it and exactly its token, changes nothing for a missing id, and keeps consistency |
| Connections.DisconnectPlayer | src/state/connection.rs:283-287 | the player's connection, if any, is disconnected with the default window; every other entry and the tokens are untouched |
| Connections.CollectStale | src/state/connection.rs:294-299 | the collected ids are distinct and are exactly the stale connections' ids |
| Connections.ExpireStale | src/state/connection.rs:291-309 | returns exactly the stale ids, without duplicates; exactly the non-stale connections remain, unchanged; exactly the tokens of swept connections go; consistency is kept; nothing stale means nothing changes |
| Connections.ConnectedPlayers | src/state/connection.rs:312-318 | exactly the stored players whose status is connected |
| Connections.SweepLeavesNoStale | src/state/connection.rs:291-309 | after the sweep every remaining connection is live or still inside its grace window, and no live one has a timed-out heartbeat |
| Lobbies.NewMember | src/state/lobby.rs:52-67 | a new member is connected and not ready |
| Lobbies.NewChannel | src/state/lobby.rs:106-120 | the id is "channel-" + channel id; the lobby is a valid, empty, host-less channel lobby with no code |
| Lobbies.NewCustom | src/state/lobby.rs:123-137 | the id is "custom-" + code; the lobby is a valid, empty, host-less custom lobby with that code |
| Lobbies.AddMember | src/state/lobby.rs:140-156 | `Full` whenever full (checked first), else `AlreadyMember` for a duplicate, else success with exactly one member added; the first member of a custom lobby becomes host, a channel lobby gets none; validity is kept |
| Lobbies.RemoveMember | src/state/lobby.rs:159-168 | returns the removed member; a non-member changes nothing; if the host left, the new host is a remaining member, or nobody exactly when none remain; validity is kept |
| Lobbies.SetReady | src/state/lobby.rs:191-198 | refused with `NotMember` exactly for a non-member; otherwise only that member's ready flag changes |
| Lobbies.TransferHost | src/state/lobby.rs:277-283 | refused with `NotMember` exactly for a non-member, host unchanged; otherwise the host becomes that member |
| Lobbies.ReadyIds | src/state/lobby.rs:229-234 | exactly the members whose ready flag is set |
| Lobbies.ReadyCount | src/state/lobby.rs:247-249 | the number of ready members, never more than the number of members |
| Lobbies.AllReady | src/state/lobby.rs:262-264 | when all are ready the ready set is the whole roster and the ready count is the member count |
| Lobbies.EveryoneReady | src/state/lobby.rs:262-264 | when every member is ready, the ready ids are exactly the member ids |
| Lobbies.AllReadyIffCount | src/state/lobby.rs:247-264 | all ready exactly when the lobby is non-empty and the ready count equals the member count |
| Lobbies.IsFull | src/state/lobby.rs:252-254 | a valid lobby that is full holds exactly its capacity |
| Lobbies.IsEmpty | src/state/lobby.rs:257-259 | a lobby is empty exactly when it has no members, and an empty lobby is never all-ready and has no ready ids |
| Lobbies.CustomLobbyScenario | src/state/lobby.rs:519-567 | the first member is host and the second is not; the ready count goes 0, 1, 2, and only then are all ready |
| Lobbies.FullLobbyRefuses | src/state/lobby.rs:600-623 | a valid lobby at capacity refuses any newcomer with `Full` |
| Lobbies.EmptyManager | src/state/lobby.rs:363-365 | an empty registry is indexed and valid |
| Lobbies.Add | src/state/lobby.rs:368-377 | the lobby is stored under its id, with its channel and code indexed when present; a new empty lobby keeps the indexes consistent |
| Lobbies.Get | src/state/lobby.rs:380-382 | found exactly when the id is stored |
| Lobbies.GetForPlayer | src/state/lobby.rs:410-414 | found exactly when the player is indexed to a stored lobby |
| Lobbies.GetByCode | src/state/lobby.rs:397-401 | looks the upper-cased code up in the code index |
| Lobbies.GetByCodeIgnoresCase | src/state/lobby.rs:397-401 | lower- and upper-casing the query never changes the lookup's result |
| Lobbies.LowerCaseCodeUnreachable | src/state/lobby.rs:373-374 | a code stored with a lower-case letter is never matched by any upper-cased query |
| Lobbies.CustomLobbyByCode | src/state/lobby.rs:626-636 | a custom lobby added as "ABC123" is found by "ABC123" and by any query that upper-cases to it, such as "abc123" |
| Lobbies.FindOrCreateChannel | src/state/lobby.rs:423-436 | the returned lobby exists and is indexed under the channel; an indexed channel changes nothing; otherwise the lobby "channel-" + channel id is created and added |
| Lobbies.FindOrCreateChannelIdempotent | src/state/lobby.rs:654-664 | a second call for the same channel returns the same lobby and changes nothing |
| Lobbies.AddPlayer | src/state/lobby.rs:439-451 | `AlreadyMember` for an indexed player, `NotMember` for an unknown lobby, otherwise the lobby's own answer; only success indexes the player to the lobby; indexes and validity are kept |
| Lobbies.RemovePlayer | src/state/lobby.rs:454-459 | the index entry always goes; the member is returned exactly when indexed into a stored lobby that holds it; then only that lobby loses that member and, if the host left, gets a remaining member as host or none exactly when none remain; a non-host leaving keeps the host; no other field of that lobby changes; indexes and validity are kept |
| Lobbies.UnindexMember | src/state/lobby.rs:454-459 | dropping an indexed player from both the index and its lobby's members keeps a consistent player index consistent |
| Lobbies.Remove | src/state/lobby.rs:462-477 | returns the stored lobby; drops it with its channel, its code and all its members' index entries; nothing else changes; indexes and validity are kept |
| Lobbies.RemoveKeepsIndexed | src/state/lobby.rs:472-474 | dropping a lobby together with its members' entries keeps the player index consistent, and no entry points at it |
| Lobbies.CollectEmpty | src/state/lobby.rs:481-486 | the collected ids are distinct and are exactly the empty lobbies |
| Lobbies.RemoveEmpty | src/state/lobby.rs:462-477 | removing an empty stored lobby drops exactly that lobby and exactly its own channel and code entries, keeps every player entry, and keeps the indexes and validity |
| Lobbies.SweepStep | src/state/lobby.rs:488-490 | removing one more empty lobby extends a partial sweep: other lobbies and player entries stay, and the channel and code indexes lose exactly the removed lobbies' keys |
| Lobbies.CleanupEmpty | src/state/lobby.rs:480-493 | returns exactly the empty lobbies' ids without duplicates; exactly the non-empty lobbies remain, unchanged; player entries stay; exactly the removed lobbies' channel and code entries go; consistency is kept; no empty lobby means nothing changes |
| Games.IsActive | src/state/game.rs:41-43 | only a game in progress is active, and an active game is never terminal |
| Games.IsTerminal | src/state/game.rs:46-48 | finished or cancelled; its relation to `IsActive` is in `Games.ActiveIsNotTerminal` |
| Games.ActiveIsNotTerminal | src/state/game.rs:41-48 | an active game is not terminal; neither active nor terminal means Idle or Starting |
| Games.LetterValue | src/state/game.rs:114-125 | every letter is worth between 1 and 10 |
| Games.LetterValueIgnoresCase | src/state/game.rs:114-115 | a letter scores the same in either case |
| Games.LetterValueExamples | src/state/game.rs:836-844 | A and E are worth 1, D 2, B 3, K 5, X 8, Z and z and q 10, and a non-letter 1 |
| Games.NewCell | src/state/game.rs:79-86 | the letter is stored upper-case with the value it scores, no multiplier and no gem |
| Games.AsI32 | src/state/game.rs:149-150 | an `as i32` cast lands in the 32-bit range and leaves values already in range unchanged |
| Games.AdjacencyLaws | src/state/game.rs:148-152 | intended adjacency is irreflexive and symmetric, and holds exactly at Chebyshev distance 1 |
| Games.AdjacencyAgreesOnSmallCoordinates | src/state/game.rs:148-152 | when every coordinate fits in 31 bits, adjacency as written equals the intended one |
| Games.AdjacencyAgreesOnGrid | src/state/game.rs:143-152 | on the 5x5 grid, adjacency as written equals the intended one |
| Games.AdjacencyTruncationCounterexample | src/state/game.rs:148-152 | (0,0) and (2^32,1) count as adjacent as written, but are not adjacent |
| Games.CentreNeighbours | src/state/game.rs:816-833 | the neighbours of the centre are exactly its eight surrounding squares; (2,2) itself, (0,0) and (4,4) are not neighbours |
| Games.NewGamePlayer | src/state/game.rs:174-192 | a new player has score 0, no gems, is connected and has played no words |
| Games.IsValid | src/state/game.rs:143-145 | an on-grid position keeps both coordinates through the 32-bit cast that adjacency applies |
| Games.IsAdjacentToAsWritten | src/state/game.rs:148-152 | the code as written, with each coordinate cast to 32 bits; never adjacent to itself; agrees with the intended adjacency below 2^31 (`Games.AdjacencyAgreesOnSmallCoordinates`) and is wrong above it (`Games.AdjacencyTruncationCounterexample`) |
| Games.TurnOrderCoversRoster | src/state/game.rs:370-372 | a valid roster's turn order is exactly as long as the roster |
| Games.NewGame | src/state/game.rs:336-354 | a new game carries the given id, lobby id and grid; it is idle, at turn index 0 of round 1 of 5, with no players, no spectators and no used words; nobody has the turn and it should not end yet |
| Games.AddPlayer | src/state/game.rs:357-375 | `GameStarted` unless idle, then `AlreadyPlayer` for a duplicate, then `TooManyPlayers` at 6; success adds exactly that player and appends it to the turn order; the roster invariant is kept, with turn order length equal to player count |
| Games.Start | src/state/game.rs:378-391 | `InvalidStatus` unless idle, `NotEnoughPlayers` with no players; otherwise only the status changes, to in progress |
| Games.CurrentPlayerId | src/state/game.rs:394-396 | present exactly when the turn index is inside the turn order, and then the player at that index |
| Games.CurrentIsSeated | src/state/game.rs:394-396 | in a valid roster, whoever has the turn is a seated player |
| Games.AdvanceTurn | src/state/game.rs:410-418 | the index moves one place modulo the order's length and stays in range; the round grows exactly when the index wraps to 0; returns the new current player and round |
| Games.AdvanceTimes | src/state/game.rs:410-418 | repeated advances change only the turn index and the round |
| Games.AdvanceTimesCounts | src/state/game.rs:410-418 | after k advances the index has moved k places around the order, and the round has grown by the number of completed passes |
| Games.CurrentAfterAdvances | src/state/game.rs:394-418 | after k advances the turn belongs to the player k places further round the order |
| Games.ShouldEnd | src/state/game.rs:421-423 | past the last round; `Games.EndsAfterMaxRounds` says when that happens and `Games.EndIsFinal` that it lasts |
| Games.EndsAfterMaxRounds | src/state/game.rs:410-423 | from the first turn of round 1, the game should end exactly after `max_rounds` full passes of the turn order |
| Games.EndIsFinal | src/state/game.rs:410-423 | advancing the turn never lowers the round, so a game that should end stays that way |
| Games.TwoPlayerTurns | src/state/game.rs:782-803 | with two players, player 1 starts; an advance gives player 2 in round 1; another gives player 1 in round 2 |
| Games.InsertByScore | src/state/game.rs:440 | insertion adds exactly the new entry to the multiset of entries |
| Games.InsertKeepsSorted | src/state/game.rs:440 | inserting into a descending scoreboard keeps it descending |
| Games.InsertKeepsDistinct | src/state/game.rs:440 | inserting a new entry into a duplicate-free scoreboard keeps it duplicate-free |
| Games.SortByScore | src/state/game.rs:440 | the result is a permutation of the input, sorted by descending score, and duplicate-free when the input is |
| Games.CollectScores | src/state/game.rs:435-439 | exactly one scoreboard line per player, in any order, without duplicates on a valid roster |
| Games.End | src/state/game.rs:426-443 | refused with `InvalidStatus` unless in progress, game unchanged; otherwise the game is finished and the scores are every player's line exactly once, highest first |
| Games.Cancel | src/state/game.rs:446-451 | from any status the game becomes `Cancelled`, hence terminal and inactive; nothing else changes |
| Games.UseWord | src/state/game.rs:509-516 | afterwards exactly the words used before and the words equal to this one up to case are used |
| Games.IsWordUsed | src/state/game.rs:509-511 | the upper-cased word is recorded; `Games.UseWord` and `Games.UsedWordIgnoresCase` state how it answers |
| Games.UsedWordIgnoresCase | src/state/game.rs:509-516 | a word used in one case counts as used in lower and upper case |
| Games.WordTrackingScenario | src/state/game.rs:806-813 | in a fresh game "TEST" is unused; after using "test", "TEST" and "test" are used |
| Games.GetCell | src/state/game.rs:519-525 | a cell is returned exactly when row and column are below 5, and it is the grid's cell there |
| Games.ExtractWord | src/state/game.rs:537-542 | the word is never longer than the path; it is as long exactly when the whole path is on the grid, and then spells the path's letters |
| Games.ExtractWordAppend | src/state/game.rs:537-542 | the word along a joined path is the words of the two parts joined |
| Games.EmptyGameManager | src/state/game.rs:639-641 | an empty registry is indexed |
| Games.GetForPlayer | src/state/game.rs:663-667 | found exactly when the player is indexed to a stored game |
| Games.Add | src/state/game.rs:644-650 | the game is stored and each of its players finds it; other players' entries and the spectator index are unchanged; consistency is kept for a new game of unindexed players |
| Games.Remove | src/state/game.rs:683-695 | returns the stored game; drops it with its players' and spectators' index entries; nothing changes for a missing id; consistency is kept |
| Games.RemoveKeepsIndexed | src/state/game.rs:687-689 | dropping a game together with its players' entries keeps the player index consistent, and no entry points at it |
| Games.CollectTerminal | src/state/game.rs:699-704 | the collected ids are distinct and are exactly the finished or cancelled games |
| Games.SweepStep | src/state/game.rs:706-708 | removing one more game extends a partial sweep: other games stay, and the player and spectator indexes lose exactly the removed games' players and spectators |
| Games.CleanupFinished | src/state/game.rs:698-711 | returns exactly the terminal games' ids without duplicates; exactly the others remain, unchanged; exactly the removed games' player and spectator entries go; in a consistent registry exactly the entries of surviving games remain; no terminal game means nothing changes |
| Coordinator.NewAppState | src/state/mod.rs:88-90 | a new application state is well formed and holds no player states |
| Coordinator.PlayerStateOf | src/state/mod.rs:93-97 | an existing state is returned and nothing changes; otherwise a disconnected state is created and stored; nothing else changes |
| Coordinator.ApplyPlayerEvent | src/state/mod.rs:110-117 | the player's stored state and the outcome are those of `apply_mut` on the player's (possibly new) state; a rejection leaves only the created state behind; no other player's state changes |
| Coordinator.FirstConnect | src/state/mod.rs:161-173 | a new player starts disconnected and `Connect` connects it |
| Coordinator.IsEmpty | src/state/mod.rs:149-153 | a cleanup result is empty exactly when it is the result with three empty lists |
| Coordinator.DisconnectAll | src/state/mod.rs:126-130 | each listed player that has a state ends `Disconnected`; every other state is unchanged; no state is created or dropped; an empty list changes nothing |
| Coordinator.Cleanup | src/state/mod.rs:120-137 | reports exactly the stale connections, the empty lobbies and the terminal games, each list without duplicates; a connection, lobby or game survives exactly when it is not reported, and unchanged; a session token survives exactly when no swept connection held it; lobby player entries stay; exactly the swept lobbies' channel and code entries and the swept games' player and spectator entries go; swept players with a state end `Disconnected`, all others keep theirs, and no state is created or dropped; an empty result changes nothing; well-formedness is kept |

## Findings

| source | as written | input that shows it | evidently intended | confidence | as-written member | corrected member |
|---|---|---|---|---|---|---|
| src/state/game.rs:148-152 | `is_adjacent_to` casts each `usize` coordinate to `i32` before subtracting, which keeps only the low 32 bits | `Position(0,0)` and `Position(4294967296,1)`: the rows read as equal, so the positions count as adjacent | adjacent exactly when the Chebyshev distance is 1 | low (only off-grid coordinates of 2^31 or more are affected; not executed) | Games.AdjacencyTruncationCounterexample | Games.AdjacencyLaws |

`Games.IsAdjacentToAsWritten` models the code as written: release-build
wrapping of the cast, of the subtraction and of `abs`. `Games.IsAdjacentTo` is
the corrected definition. `Games.AdjacencyAgreesOnGrid` proves that the two
agree on every grid position, so the rest of the model is unaffected.

## Left out

- Rendering (`to_json`, `grid_to_json`, `Display`, `as_str`) is serialisation, not logic.
- `Instant::now`, `elapsed` and `idle_time` are replaced by the `now` argument. The clock itself is not modelled.
- Wall-clock timestamps are not modelled: `chrono` `joined_at`, `created_at`, `started_at` and `ended_at`.
- `TimerVoteState` is not modelled; it is used only for display and remaining-seconds countdowns.
- Message payloads are opaque strings. `uses_envelope` and the avatar and user name strings are carried but never inspected.
- Mutable-reference accessors are the same lookups as their immutable counterparts: `get_mut`, `get_by_session_mut`, `get_by_code_mut`, `get_for_player_mut`, `get_cell_mut`, `get_member_mut`, `get_player_mut`.
- Iterators and counts are plain views of the maps: `all_players`, `connected_count`, `total_count`, `members`, `member_ids`, `connected_member_ids`, `member_count`, `connected_count`, `count`, `lobby_ids`, `players`, `player_ids_in_order`, `player_count`, `spectators`, `spectator_count`, `active_count`.
- These operations are outside the modelled core; they are single map lookups or updates with no interesting guard: `GameManager::get`, `get_by_channel`, `get_member`, `has_member`, `is_host`, `set_connected`, `has_active_game`, `set_active_game`, `get_player`, `has_player`, `current_player`, `is_player_turn`, `add_spectator`, `remove_spectator`, `get_for_spectator`, `get_player_state`, `remove_player_state`.
- `GridCell::with_multiplier` and `with_gem` are builders that set one field each.
- src/lib.rs holds only documentation and re-exports.
- Games.IsAdjacentToAsWritten: models the release build. A debug build panics on the overflowing subtraction or `abs` instead of wrapping.
- Games.AdvanceTurn: `round` is an unbounded natural. The source's `u8` round counter would overflow after round 255.
- Connections.Send: `send_seq` is an unbounded natural. The source's `u64` wrap-around is not modelled.
- Games.UseWord: Unicode `to_uppercase` is restricted to ASCII upper-casing. Non-ASCII letters are compared as given.
- Lobbies.GetByCode: restricts Unicode `to_uppercase` to ASCII, like `Games.UseWord`.
- Connections.ExpireStale: all staleness tests use one `now`, whereas the source reads the clock once per connection. The source also expires each swept connection before dropping it; since the connection is dropped, that step is not observable and is not modelled.
- Lobbies.RemoveMember: the new host is any remaining member. The source takes the first key in hash-map iteration order, which the model treats as unknown.
- Lobbies.RemovePlayer: when the host leaves, the new host is any remaining member, for the same reason as `Lobbies.RemoveMember`.
- Lobbies.Remove: drops the player entries of the member map's keys. The source uses each member's `player_id`; the two coincide whenever members are added through `AddMember`.
- Lobbies.FindOrCreateChannel: requires an indexed channel to point at a stored lobby. The source unwraps that lookup and panics otherwise.
- Games.AdvanceTurn: requires a non-empty turn order, because the source divides by its length and panics when it is empty.
- The `Starting` game status is declared but entered by no operation, in the source as in the model.
- Game spectators are carried in the game record and removed from the spectator index with their game, both by `Games.Remove` and by the sweep. Adding and removing spectators is not modelled.

=== FILE: app_state.dfy ===
/**
  The combined application state: the connection, lobby and game registries
  side by side with one location state machine per player, and the periodic
  cleanup that sweeps all three registries and tells the state machines which
  players lost their connection.
 */
module Coordinator {
  import opened Common
  import Player
  import Connections
  import Lobbies
  import Games

  datatype AppState = AppState(
    connections: Connections.Manager,
    lobbies: Lobbies.Manager,
    games: Games.GameManager,
    playerStates: map<int, Player.PlayerState>)

  /** All registries keep their indexes in step. */
  predicate Wellformed(a: AppState) {
    && Connections.Consistent(a.connections)
    && Lobbies.Indexed(a.lobbies) && Lobbies.AllValid(a.lobbies)
    && Games.Indexed(a.games)
  }

  function NewAppState(): (a: AppState)
    ensures Wellformed(a) && a.playerStates == map[]
  {
    AppState(Connections.EmptyManager(), Lobbies.EmptyManager(), Games.EmptyGameManager(), map[])
  }

  /** The player's state machine, or a fresh one if the player has none yet. */
  function StateOrNew(a: AppState, pid: int): (s: Player.PlayerState)
    ensures pid !in a.playerStates ==> s.location == Player.Disconnected
  {
    if pid in a.playerStates then a.playerStates[pid] else Player.NewState()
  }

  /**
    The player's state machine, created (disconnected) and stored on first use.
    An existing one is returned as it is and nothing changes.
   */
  function PlayerStateOf(a: AppState, pid: int): (r: (AppState, Player.PlayerState))
    ensures pid in a.playerStates ==> r == (a, a.playerStates[pid])
    ensures pid !in a.playerStates ==> r.1.location == Player.Disconnected
    ensures r.0.playerStates == a.playerStates[pid := r.1]
    ensures r.0.(playerStates := a.playerStates) == a
  {
    if pid in a.playerStates then (a, a.playerStates[pid])
    else
      var s := Player.NewState();
      (a.(playerStates := a.playerStates[pid := s]), s)
  }

  /**
    Applies an event to one player's state machine, creating it first if need
    be. The outcome is the machine's own; a rejected event still leaves the
    freshly created state behind. No other player's state changes.
   */
  function ApplyPlayerEvent(a: AppState, pid: int, e: Player.Event): (r: (AppState, Outcome<Player.InvalidTransition>))
    ensures pid in r.0.playerStates
    ensures (r.0.playerStates[pid], r.1) == Player.ApplyMut(StateOrNew(a, pid), e)
    ensures r.1.Fail? ==> r.0 == PlayerStateOf(a, pid).0
    ensures r.1.Pass? ==> Player.Step(StateOrNew(a, pid).location, e, r.0.playerStates[pid].location)
    ensures forall q :: q != pid ==> (q in r.0.playerStates <==> q in a.playerStates)
    ensures forall q :: q != pid && q in a.playerStates ==> r.0.playerStates[q] == a.playerStates[q]
    ensures r.0.(playerStates := a.playerStates) == a
  {
    var (a1, s) := PlayerStateOf(a, pid);
    var (s1, outcome) := Player.ApplyMut(s, e);
    (a1.(playerStates := a1.playerStates[pid := s1]), outcome)
  }

  /** A new player starts disconnected, and `Connect` connects it. */
  lemma FirstConnect(pid: int)
    ensures var (a1, s) := PlayerStateOf(NewAppState(), pid);
            && !Player.IsConnected(s.location)
            && var (a2, outcome) := ApplyPlayerEvent(a1, pid, Player.Connect);
            && outcome.Pass? && Player.IsConnected(a2.playerStates[pid].location)
  {
  }

  /**
    Feeds `Disconnect` to the state machine of each listed player that has one,
    ignoring rejections. Listed players end `Disconnected`; the others keep their
    state, and no state is created or dropped.
   */
  method DisconnectAll(states: map<int, Player.PlayerState>, pids: seq<int>) returns (r: map<int, Player.PlayerState>)
    ensures r.Keys == states.Keys
    ensures forall pid :: pid in r && pid in pids ==> r[pid].location == Player.Disconnected
    ensures forall pid :: pid in r && pid !in pids ==> r[pid] == states[pid]
    ensures |pids| == 0 ==> r == states
  {
    r := states;
    for i := 0 to |pids|
      invariant r.Keys == states.Keys
      invariant forall pid :: pid in r && pid in pids[..i] ==> r[pid].location == Player.Disconnected
      invariant forall pid :: pid in r && pid !in pids[..i] ==> r[pid] == states[pid]
    {
      var pid := pids[i];
      PrefixExtend(pids, i);
      if pid in r {
        Player.DisconnectAlwaysLands(r[pid]);
        r := r[pid := Player.ApplyMut(r[pid], Player.Disconnect).0];
      }
    }
    assert pids[..|pids|] == pids;
  }

  /** What one cleanup pass removed. */
  datatype CleanupResult = CleanupResult(
    expiredConnections: seq<int>,
    emptyLobbies: seq<string>,
    finishedGames: seq<string>)

  /** Nothing was swept: all three lists are empty. */
  predicate IsEmpty(c: CleanupResult)
    ensures IsEmpty(c) <==> c == CleanupResult([], [], [])
  {
    |c.expiredConnections| == 0 && |c.emptyLobbies| == 0 && |c.finishedGames| == 0
  }

  /**
    One cleanup pass at time `now`: sweeps stale connections, empty lobbies and
    finished or cancelled games, then feeds `Disconnect` to the state machine of
    every swept connection's player that has one. Those end `Disconnected`;
    everybody else's state is untouched and no state is created or dropped.
    Whatever is not swept survives unchanged; exactly the swept lobbies' channel
    and code entries and the swept games' player and spectator entries go.
   */
  method Cleanup(a: AppState, now: nat) returns (r: AppState, result: CleanupResult)
    ensures Distinct(result.expiredConnections) && Distinct(result.emptyLobbies) && Distinct(result.finishedGames)
    ensures forall pid :: pid in result.expiredConnections <==>
              pid in a.connections.connections && Connections.IsStale(a.connections.connections[pid], now)
    ensures forall lid :: lid in result.emptyLobbies <==>
              lid in a.lobbies.lobbies && Lobbies.IsEmpty(a.lobbies.lobbies[lid])
    ensures forall gid :: gid in result.finishedGames <==>
              gid in a.games.games && Games.IsTerminal(a.games.games[gid].status)
    ensures forall pid :: pid in r.connections.connections ==>
              !Connections.IsStale(r.connections.connections[pid], now)
    ensures forall pid :: pid in r.connections.connections <==>
              pid in a.connections.connections && pid !in result.expiredConnections
    ensures forall pid :: pid in r.connections.connections ==>
              r.connections.connections[pid] == a.connections.connections[pid]
    ensures forall t :: t in r.connections.sessions <==>
              (t in a.connections.sessions
               && !Connections.HeldBy(a.connections.connections, Connections.StaleIds(a.connections, now), t))
    ensures forall t :: t in r.connections.sessions ==> r.connections.sessions[t] == a.connections.sessions[t]
    ensures forall lid :: lid in r.lobbies.lobbies <==> lid in a.lobbies.lobbies && lid !in result.emptyLobbies
    ensures forall lid :: lid in r.lobbies.lobbies ==> r.lobbies.lobbies[lid] == a.lobbies.lobbies[lid]
    ensures r.lobbies.playerIndex == a.lobbies.playerIndex
    ensures r.lobbies.channelIndex == a.lobbies.channelIndex - Lobbies.ChannelsOf(a.lobbies, set lid | lid in result.emptyLobbies)
    ensures r.lobbies.codeIndex == a.lobbies.codeIndex - Lobbies.CodesOf(a.lobbies, set lid | lid in result.emptyLobbies)
    ensures forall gid :: gid in r.games.games <==> gid in a.games.games && gid !in result.finishedGames
    ensures forall gid :: gid in r.games.games ==> r.games.games[gid] == a.games.games[gid]
    ensures r.games.playerIndex == a.games.playerIndex - Games.PlayersOf(a.games, set gid | gid in result.finishedGames)
    ensures r.games.spectatorIndex == a.games.spectatorIndex - Games.SpectatorsOf(a.games, set gid | gid in result.finishedGames)
    ensures r.playerStates.Keys == a.playerStates.Keys
    ensures forall pid :: pid in r.playerStates && pid in result.expiredConnections ==>
              r.playerStates[pid].location == Player.Disconnected
    ensures forall pid :: pid in r.playerStates && pid !in result.expiredConnections ==>
              r.playerStates[pid] == a.playerStates[pid]
    ensures IsEmpty(result) ==> r == a
    ensures Wellformed(a) ==> Wellformed(r)
  {
    var connections, expired := Connections.ExpireStale(a.connections, now);
    var lobbies, empty := Lobbies.CleanupEmpty(a.lobbies);
    var games, finished := Games.CleanupFinished(a.games);

    var states := DisconnectAll(a.playerStates, expired);
    r := AppState(connections, lobbies, games, states);
    result := CleanupResult(expired, empty, finished);
  }
}

=== FILE: ascii.dfy ===
/**
  ASCII case mapping. Rust's `char::to_ascii_uppercase` is exactly `UpperChar`;
  `str::to_uppercase` (full Unicode) is approximated by `Upper`, which maps only a-z.
 */
module Ascii {

  predicate IsLower(c: char) { 'a' <= c <= 'z' }

  predicate IsUpper(c: char) { 'A' <= c <= 'Z' }

  /** Maps a-z to A-Z and keeps every other character. */
  function UpperChar(c: char): (u: char)
    ensures !IsLower(u)
    ensures IsLower(c) ==> IsUpper(u) && u as int + 32 == c as int
    ensures !IsLower(c) ==> u == c
  {
    if IsLower(c) then (c as int - 32) as char else c
  }

  /** Maps A-Z to a-z and keeps every other character. */
  function LowerChar(c: char): (l: char)
    ensures !IsUpper(l)
    ensures IsUpper(c) ==> IsLower(l) && l as int == c as int + 32
    ensures !IsUpper(c) ==> l == c
  {
    if IsUpper(c) then (c as int + 32) as char else c
  }

  /** Upper-cases every character of a string, keeping its length. */
  function Upper(s: string): (u: string)
    ensures |u| == |s|
    ensures forall i :: 0 <= i < |s| ==> u[i] == UpperChar(s[i])
  {
    if s == [] then [] else [UpperChar(s[0])] + Upper(s[1..])
  }

  /** Lower-cases every character of a string, keeping its length. */
  function Lower(s: string): (l: string)
    ensures |l| == |s|
    ensures forall i :: 0 <= i < |s| ==> l[i] == LowerChar(s[i])
  {
    if s == [] then [] else [LowerChar(s[0])] + Lower(s[1..])
  }

  /** Upper-casing twice is upper-casing once. */
  lemma {:induction false} UpperIdempotent(s: string)
    ensures Upper(Upper(s)) == Upper(s)
  {
    if s != [] {
      UpperIdempotent(s[1..]);
      assert Upper(s)[1..] == Upper(s[1..]);
    }
  }

  /** Upper-casing ignores a prior lower-casing: the two cases of a letter coincide. */
  lemma {:induction false} UpperOfLower(s: string)
    ensures Upper(Lower(s)) == Upper(s)
  {
    if s != [] {
      UpperOfLower(s[1..]);
      assert Lower(s)[1..] == Lower(s[1..]);
    }
  }

  /** An upper-cased string contains no lower-case ASCII letter. */
  predicate HasNoLower(s: string) {
    forall i :: 0 <= i < |s| ==> !IsLower(s[i])
  }
}

=== FILE: common.dfy ===
/** Small failure-carrying datatypes shared by every module of the model. */
module Common {

  /** A value that may be absent; stands for Rust's `Option`. */
  datatype Option<+T> = None | Some(value: T)

  /** Success with a value or failure with an error; stands for Rust's `Result<T, E>`. */
  datatype Result<+T, +E> = Ok(value: T) | Err(error: E)

  /** Success without a value or failure with an error; stands for `Result<(), E>`. */
  datatype Outcome<+E> = Pass | Fail(error: E)

  /** No element occurs twice. */
  predicate Distinct<T(==)>(s: seq<T>) {
    forall i, j :: 0 <= i < j < |s| ==> s[i] != s[j]
  }

  /** In a sequence without repetitions, no element occurs before its own position. */
  lemma DistinctNotInPrefix<T>(s: seq<T>, i: nat)
    requires Distinct(s) && i < |s|
    ensures s[i] !in s[..i]
  {
    forall k | 0 <= k < i ensures s[..i][k] != s[i] {
      assert s[..i][k] == s[k];
    }
  }

  /** A prefix one longer is the prefix followed by the next element. */
  lemma PrefixExtend<T>(s: seq<T>, i: nat)
    requires i < |s|
    ensures s[..i + 1] == s[..i] + [s[i]]
  {
  }

  /** A non-empty set has a member. */
  lemma NonEmptyHasMember<T>(s: set<T>)
    requires s != {}
    ensures exists x :: x in s
  {
    if forall x :: x !in s {
      assert false;
    }
  }

  /**
    Some member of a non-empty set, chosen arbitrarily. Stands for the first
    element a hash-map iteration happens to yield: nothing may depend on which.
   */
  method Pick<T>(s: set<T>) returns (x: T)
    requires s != {}
    ensures x in s
  {
    NonEmptyHasMember(s);
    x :| x in s;
  }

  /** Dropping two sets of keys one after the other drops their union. */
  lemma MinusTwice<K, V>(a: map<K, V>, s: set<K>, t: set<K>)
    ensures a - s - t == a - (s + t)
  {
  }

  /** A subset is never larger than its superset. */
  lemma SubsetSize<T>(a: set<T>, b: set<T>)
    requires a <= b
    ensures |a| <= |b|
  {
    assert b == a + (b - a);
    assert a * (b - a) == {};
  }

  /** A subset as large as its superset is the superset. */
  lemma SubsetSameSize<T>(a: set<T>, b: set<T>)
    requires a <= b && |a| == |b|
    ensures a == b
  {
    assert b == a + (b - a);
    assert a * (b - a) == {};
    assert |b - a| == 0;
  }

  /** A sequence without repetitions has as many elements as its set of elements. */
  lemma {:induction false} DistinctSize<T>(s: seq<T>)
    requires Distinct(s)
    ensures |set x | x in s| == |s|
  {
    if s != [] {
      DistinctSize(s[1..]);
      assert (set x | x in s) == (set x | x in s[1..]) + {s[0]};
      assert s[0] !in s[1..];
    }
  }
}

=== FILE: connection.dfy ===
/**
  Connection continuity: per-connection sequence numbering, the replay buffer of
  unacknowledged messages, the reconnection grace window and heartbeat liveness,
  plus the registry that indexes connections by player id and by session token.

  Time is an explicit argument `now` (whole seconds on a monotonic clock); the
  model never reads a clock. Durations are seconds as well.
 */
module Connections {
  import opened Common

  const DefaultReconnectGracePeriod: nat := 60
  const DefaultHeartbeatInterval: nat := 30
  const DefaultHeartbeatTimeout: nat := 45

  datatype Status =
    | Connected
    | Disconnected(since: nat, graceUntil: nat)
    | Expired

  /** A live connection is never inside a grace window. */
  predicate IsConnected(s: Status)
    ensures IsConnected(s) ==> forall now :: !IsReconnectable(s, now)
  {
    s.Connected?
  }

  /** Disconnected and still inside the grace window at time `now`. */
  predicate IsReconnectable(s: Status, now: nat) {
    s.Disconnected? && now < s.graceUntil
  }

  /**
    Expired outright, or disconnected with the grace window over. At any time a
    status is exactly one of connected, reconnectable and expired.
   */
  predicate IsExpired(s: Status, now: nat)
    ensures IsExpired(s, now) <==> !IsConnected(s) && !IsReconnectable(s, now)
  {
    s.Expired? || (s.Disconnected? && now >= s.graceUntil)
  }

  /**
    The grace window only closes as time passes: a status reconnectable at some
    time was reconnectable at every earlier time, and an expired one stays expired.
   */
  lemma GraceWindowCloses(s: Status, t1: nat, t2: nat)
    requires t1 <= t2
    ensures IsReconnectable(s, t2) ==> IsReconnectable(s, t1)
    ensures IsExpired(s, t1) ==> IsExpired(s, t2)
    ensures !IsConnected(s) && !IsReconnectable(s, t1) ==> IsExpired(s, t2)
  {
  }

  /** The serialised message; its content is never inspected. */
  type Payload = string

  /** A sent message kept for replay until the client acknowledges it. */
  datatype PendingMessage = PendingMessage(seqNum: nat, message: Payload, sentAt: nat)

  datatype Connection = Connection(
    playerId: int,
    userId: string,
    username: string,
    avatarUrl: Option<string>,
    status: Status,
    connectedAt: nat,
    lastActivity: nat,
    lastHeartbeat: nat,
    sendSeq: nat,
    ackSeq: nat,
    pending: seq<PendingMessage>,
    sessionToken: string,
    usesEnvelope: bool)

  // ---------------------------------------------------------------------------
  // Replay-buffer invariants

  /** Sequence numbers in the buffer strictly increase. */
  predicate Ascending(ms: seq<PendingMessage>) {
    forall i, j :: 0 <= i < j < |ms| ==> ms[i].seqNum < ms[j].seqNum
  }

  /** The buffer is ascending and holds only numbers already minted (1 ..= send_seq). */
  predicate Valid(c: Connection) {
    && Ascending(c.pending)
    && forall i :: 0 <= i < |c.pending| ==> 0 < c.pending[i].seqNum <= c.sendSeq
  }

  /** The delivery counters and the replay buffer agree. */
  predicate SameBookkeeping(a: Connection, b: Connection) {
    a.sendSeq == b.sendSeq && a.ackSeq == b.ackSeq && a.pending == b.pending
  }

  /** The messages of `ms` numbered above `after`, in their original order. */
  function Retain(ms: seq<PendingMessage>, after: nat): (r: seq<PendingMessage>)
    ensures |r| <= |ms|
    ensures forall m :: m in r <==> m in ms && m.seqNum > after
    ensures Ascending(ms) ==> Ascending(r)
    decreases |ms|
  {
    if ms == [] then []
    else if ms[0].seqNum > after then [ms[0]] + Retain(ms[1..], after)
    else Retain(ms[1..], after)
  }

  lemma {:induction false} RetainKeepsAll(ms: seq<PendingMessage>, after: nat)
    requires forall i :: 0 <= i < |ms| ==> ms[i].seqNum > after
    ensures Retain(ms, after) == ms
    decreases |ms|
  {
    if ms != [] {
      RetainKeepsAll(ms[1..], after);
    }
  }

  lemma AscendingTail(ms: seq<PendingMessage>)
    requires Ascending(ms) && ms != []
    ensures Ascending(ms[1..])
  {
    var t := ms[1..];
    forall i, j | 0 <= i < j < |t| ensures t[i].seqNum < t[j].seqNum {
      assert t[i] == ms[i + 1] && t[j] == ms[j + 1];
    }
  }

  /** In an ascending buffer whose first message is above `after`, every message is. */
  lemma AllAboveFromHead(ms: seq<PendingMessage>, after: nat)
    requires Ascending(ms) && ms != [] && ms[0].seqNum > after
    ensures forall i :: 0 <= i < |ms| ==> ms[i].seqNum > after
  {
    forall i | 0 < i < |ms| ensures ms[i].seqNum > after {
      assert ms[0].seqNum < ms[i].seqNum;
    }
  }

  /**
    On an ascending buffer, retaining drops a prefix: what is kept is a suffix,
    and every dropped message is numbered at most `after`.
   */
  lemma {:induction false} RetainIsSuffix(ms: seq<PendingMessage>, after: nat)
    requires Ascending(ms)
    ensures Retain(ms, after) == ms[|ms| - |Retain(ms, after)|..]
    ensures forall i :: 0 <= i < |ms| - |Retain(ms, after)| ==> ms[i].seqNum <= after
    decreases |ms|
  {
    if ms == [] {
    } else if ms[0].seqNum > after {
      AllAboveFromHead(ms, after);
      RetainKeepsAll(ms, after);
      assert ms[0..] == ms;
    } else {
      var tail := ms[1..];
      var kept := Retain(tail, after);
      assert Retain(ms, after) == kept;
      AscendingTail(ms);
      RetainIsSuffix(tail, after);
      var cut := |tail| - |kept|;
      assert kept == tail[cut..];
      assert tail[cut..] == ms[cut + 1..];
      forall i | 0 <= i < cut + 1 ensures ms[i].seqNum <= after {
        if i > 0 { assert ms[i] == tail[i - 1]; }
      }
    }
  }

  // ---------------------------------------------------------------------------
  // Connection operations

  /**
    A new connection: connected, counters at zero, empty replay buffer, no
    envelope, all three timestamps at `now`; its heartbeat times out exactly
    once more than 45 seconds have passed.
   */
  function NewConnection(playerId: int, userId: string, username: string, avatarUrl: Option<string>,
                         sessionToken: string, now: nat): (c: Connection)
    ensures IsConnected(c.status) && c.playerId == playerId && c.sessionToken == sessionToken
    ensures c.userId == userId && c.username == username && c.avatarUrl == avatarUrl && !c.usesEnvelope
    ensures c.connectedAt == now && c.lastActivity == now && c.lastHeartbeat == now
    ensures c.sendSeq == 0 && c.ackSeq == 0 && c.pending == []
    ensures forall t: nat :: IsHeartbeatTimeout(c, t) <==> t > now + DefaultHeartbeatTimeout
    ensures Valid(c) && !IsHeartbeatTimeout(c, now)
  {
    Connection(playerId, userId, username, avatarUrl, Connected, now, now, now, 0, 0, [], sessionToken, false)
  }

  /**
    Opens a grace window of `grace` seconds starting at `now`, whatever the
    previous status (an expired connection is re-opened too). No other field changes.
   */
  function DisconnectWithGrace(c: Connection, grace: nat, now: nat): (r: Connection)
    ensures r.status.Disconnected? && r.status.since == now
    ensures forall t: nat :: IsReconnectable(r.status, t) <==> t < now + grace
    ensures IsExpired(r.status, now) <==> grace == 0
    ensures r.(status := c.status) == c
    ensures Valid(c) ==> Valid(r)
  {
    c.(status := Disconnected(now, now + grace))
  }

  /** Disconnects with the default 60-second grace window. */
  function Disconnect(c: Connection, now: nat): (r: Connection)
    ensures IsReconnectable(r.status, now)
    ensures forall t: nat :: IsExpired(r.status, t) <==> t >= now + DefaultReconnectGracePeriod
    ensures r.(status := c.status) == c
  {
    DisconnectWithGrace(c, DefaultReconnectGracePeriod, now)
  }

  /**
    Restores `Connected`. From `Connected` it only refreshes activity and replays
    nothing; inside the grace window it replays the whole buffer; otherwise it
    fails and the connection is left as it was.
   */
  function Reconnect(c: Connection, now: nat): (r: (Connection, Result<seq<PendingMessage>, string>))
    ensures r.1.Ok? <==> !IsExpired(c.status, now)
    ensures IsConnected(c.status) ==> r.1 == Ok([]) && r.0 == c.(lastActivity := now)
    ensures IsReconnectable(c.status, now) ==>
              && r.1 == Ok(c.pending)
              && IsConnected(r.0.status)
              && SameBookkeeping(c, r.0)
              && r.0.lastActivity == now && r.0.lastHeartbeat == now
              && r.0.(status := c.status, lastActivity := c.lastActivity, lastHeartbeat := c.lastHeartbeat) == c
    ensures r.1.Err? ==> r.0 == c
    ensures Valid(c) ==> Valid(r.0)
  {
    match c.status
    case Connected => (c.(lastActivity := now), Ok([]))
    case Disconnected(_, graceUntil) =>
      if now < graceUntil then
        (c.(status := Connected, lastActivity := now, lastHeartbeat := now), Ok(c.pending))
      else
        (c, Err("Grace period expired"))
    case Expired => (c, Err("Connection expired"))
  }

  /** Marks the connection expired and discards the replay buffer; it can never reconnect. */
  function Expire(c: Connection): (r: Connection)
    ensures forall t: nat :: IsExpired(r.status, t)
    ensures forall t: nat :: Reconnect(r, t).1.Err?
    ensures r.pending == [] && Valid(r)
    ensures r.(status := c.status, pending := c.pending) == c
  {
    c.(status := Expired, pending := [])
  }

  /** Records inbound traffic; it does not count as a heartbeat. */
  function Touch(c: Connection, now: nat): (r: Connection)
    ensures r.lastActivity == now && r.(lastActivity := c.lastActivity) == c
    ensures forall t: nat :: IsHeartbeatTimeout(r, t) == IsHeartbeatTimeout(c, t)
  {
    c.(lastActivity := now)
  }

  /** Records a heartbeat: no heartbeat timeout for the next 45 seconds. */
  function Heartbeat(c: Connection, now: nat): (r: Connection)
    ensures forall t: nat :: t <= now + DefaultHeartbeatTimeout ==> !IsHeartbeatTimeout(r, t)
    ensures r.lastHeartbeat == now && r.lastActivity == now
    ensures r.status == c.status && SameBookkeeping(c, r)
    ensures r.(lastHeartbeat := c.lastHeartbeat, lastActivity := c.lastActivity) == c
  {
    c.(lastHeartbeat := now, lastActivity := now)
  }

  /**
    Processes an acknowledgement: `ack_seq` becomes `ack` exactly (no clamping)
    and every buffered message numbered at most `ack` is pruned.
   */
  function Acknowledge(c: Connection, ack: nat): (r: Connection)
    ensures r.ackSeq == ack
    ensures forall m :: m in r.pending ==> m.seqNum > ack
    ensures forall m :: m in r.pending <==> m in c.pending && m.seqNum > ack
    ensures |r.pending| <= |c.pending|
    ensures r.status == c.status && r.sendSeq == c.sendSeq
    ensures r.(ackSeq := c.ackSeq, pending := c.pending) == c
    ensures Valid(c) ==> Valid(r)
  {
    c.(ackSeq := ack, pending := Retain(c.pending, ack))
  }

  /**
    Mints the next sequence number and buffers the message under it. The new
    number is above every number already in the buffer.
   */
  function Send(c: Connection, message: Payload, now: nat): (r: (Connection, nat))
    ensures r.1 == c.sendSeq + 1 && r.0.sendSeq == r.1
    ensures r.0.pending == c.pending + [PendingMessage(r.1, message, now)]
    ensures Valid(c) ==> Valid(r.0) && forall m :: m in c.pending ==> m.seqNum < r.1
    ensures r.0.status == c.status && r.0.ackSeq == c.ackSeq
    ensures r.0.(sendSeq := c.sendSeq, pending := c.pending) == c
  {
    var n := c.sendSeq + 1;
    (c.(sendSeq := n, pending := c.pending + [PendingMessage(n, message, now)]), n)
  }

  /** Connected, and the last heartbeat is more than 45 seconds old. */
  predicate IsHeartbeatTimeout(c: Connection, now: nat)
    ensures IsHeartbeatTimeout(c, now) ==> !IsReconnectable(c.status, now) && !IsExpired(c.status, now)
  {
    IsConnected(c.status) && now - c.lastHeartbeat > DefaultHeartbeatTimeout
  }

  /** The buffered messages numbered above `after`, in ascending order. */
  function MessagesSince(c: Connection, after: nat): (r: seq<PendingMessage>)
    ensures |r| <= |c.pending|
    ensures forall m :: m in r <==> m in c.pending && m.seqNum > after
    ensures Valid(c) ==> Ascending(r) && r == c.pending[|c.pending| - |r|..]
  {
    var r := Retain(c.pending, after);
    assert Valid(c) ==> r == c.pending[|c.pending| - |r|..] by {
      if Valid(c) { RetainIsSuffix(c.pending, after); }
    }
    r
  }

  // ---------------------------------------------------------------------------
  // Properties of sequences of operations

  /** Sends each message in turn; gives the final connection and the numbers returned. */
  function SendEach(c: Connection, messages: seq<Payload>, now: nat): (r: (Connection, seq<nat>))
    ensures |r.1| == |messages|
    ensures forall i :: 0 <= i < |messages| ==> r.1[i] == c.sendSeq + i + 1
    ensures r.0.sendSeq == c.sendSeq + |messages|
    ensures |r.0.pending| == |c.pending| + |messages| && r.0.pending[..|c.pending|] == c.pending
    ensures forall i :: 0 <= i < |messages| ==>
              r.0.pending[|c.pending| + i] == PendingMessage(c.sendSeq + i + 1, messages[i], now)
    ensures Valid(c) ==> Valid(r.0)
    decreases |messages|
  {
    if messages == [] then (c, [])
    else
      var (c1, n) := Send(c, messages[0], now);
      var (c2, ns) := SendEach(c1, messages[1..], now);
      assert c2.pending[|c.pending|] == c1.pending[|c.pending|] by {
        assert c2.pending[..|c1.pending|] == c1.pending;
      }
      (c2, [n] + ns)
  }

  /** From a new connection, successive sends return 1, 2, 3, ... */
  lemma SendsCountFromOne(c: Connection, messages: seq<Payload>, now: nat)
    requires c.sendSeq == 0
    ensures forall i :: 0 <= i < |messages| ==> SendEach(c, messages, now).1[i] == i + 1
  {
  }

  /**
    The pruned messages form a prefix of the buffer: after acknowledging `ack`
    the buffer is a suffix of the old one, and everything cut off was numbered at
    most `ack`.
   */
  lemma AcknowledgePrunesPrefix(c: Connection, ack: nat)
    requires Valid(c)
    ensures var r := Acknowledge(c, ack);
            && r.pending == c.pending[|c.pending| - |r.pending|..]
            && forall i :: 0 <= i < |c.pending| - |r.pending| ==> c.pending[i].seqNum <= ack
  {
    RetainIsSuffix(c.pending, ack);
  }

  /**
    A later, smaller acknowledgement moves `ack_seq` back down (it is not clamped)
    but resurrects nothing: the buffer stays as the larger one left it.
   */
  lemma LowerAckResurrectsNothing(c: Connection, a: nat, b: nat)
    requires b < a
    ensures Acknowledge(Acknowledge(c, a), b).ackSeq == b
    ensures Acknowledge(Acknowledge(c, a), b).pending == Acknowledge(c, a).pending
  {
    var r := Acknowledge(c, a);
    forall i | 0 <= i < |r.pending|
      ensures r.pending[i].seqNum > b
    {
      assert r.pending[i] in r.pending;
    }
    RetainKeepsAll(r.pending, b);
  }

  /** Three sends on a fresh buffer number the messages 1, 2, 3 and buffer them in order. */
  lemma ThreeSends(c0: Connection, m1: Payload, m2: Payload, m3: Payload, now: nat)
    requires c0.sendSeq == 0 && c0.pending == []
    ensures SendEach(c0, [m1, m2, m3], now).1 == [1, 2, 3]
    ensures SendEach(c0, [m1, m2, m3], now).0.pending
            == [PendingMessage(1, m1, now), PendingMessage(2, m2, now), PendingMessage(3, m3, now)]
  {
    var ms := [m1, m2, m3];
    var r := SendEach(c0, ms, now);
    assert ms[1] == m2 && ms[2] == m3;
    assert r.1[0] == 1 && r.1[1] == 2 && r.1[2] == 3;
    assert r.0.pending[0] == PendingMessage(1, m1, now);
    assert r.0.pending[1] == PendingMessage(2, m2, now);
    assert r.0.pending[2] == PendingMessage(3, m3, now);
  }

  /**
    Replay: after three sends, a reconnect inside the window returns all three in
    order; acknowledging 2 first leaves only message 3 to replay. A zero grace
    window makes the connection expired at once and reconnecting fails.
   */
  lemma ReplayScenario(c0: Connection, m1: Payload, m2: Payload, m3: Payload, now: nat)
    requires c0 == NewConnection(1, "1000", "Player1", None, "session-1", now)
    ensures var c3 := SendEach(c0, [m1, m2, m3], now).0;
            && Reconnect(Disconnect(c3, now), now + 1).1
               == Ok([PendingMessage(1, m1, now), PendingMessage(2, m2, now), PendingMessage(3, m3, now)])
            && Reconnect(Disconnect(Acknowledge(c3, 2), now), now + 1).1 == Ok([PendingMessage(3, m3, now)])
            && IsExpired(DisconnectWithGrace(c3, 0, now).status, now)
            && Reconnect(DisconnectWithGrace(c3, 0, now), now).1.Err?
  {
    ThreeSends(c0, m1, m2, m3, now);
    var p := [PendingMessage(1, m1, now), PendingMessage(2, m2, now), PendingMessage(3, m3, now)];
    assert p[1..] == [PendingMessage(2, m2, now), PendingMessage(3, m3, now)];
    assert Retain(p, 2) == [PendingMessage(3, m3, now)];
  }

  // ---------------------------------------------------------------------------
  // The registry

  /** Connections by player id, and the session-token index into them. */
  datatype Manager = Manager(connections: map<int, Connection>, sessions: map<string, int>)

  /**
    Both indexes agree: each connection is stored under its own player id and is
    reachable through exactly its own session token.
   */
  predicate Consistent(m: Manager) {
    && (forall pid :: pid in m.connections ==>
          && m.connections[pid].playerId == pid
          && m.connections[pid].sessionToken in m.sessions
          && m.sessions[m.connections[pid].sessionToken] == pid)
    && (forall t :: t in m.sessions ==>
          && m.sessions[t] in m.connections
          && m.connections[m.sessions[t]].sessionToken == t)
  }

  function EmptyManager(): (m: Manager)
    ensures Consistent(m)
  {
    Manager(map[], map[])
  }

  function Get(m: Manager, pid: int): (r: Option<Connection>)
    ensures r.Some? <==> pid in m.connections
    ensures r.Some? ==> r.value == m.connections[pid]
  {
    if pid in m.connections then Some(m.connections[pid]) else None
  }

  /** Looks a connection up through the session-token index. */
  function GetBySession(m: Manager, token: string): (r: Option<Connection>)
    ensures r.Some? <==> token in m.sessions && m.sessions[token] in m.connections
    ensures r.Some? ==> r.value == m.connections[m.sessions[token]]
    ensures Consistent(m) && r.Some? ==> r.value.sessionToken == token
  {
    if token in m.sessions && m.sessions[token] in m.connections
    then Some(m.connections[m.sessions[token]])
    else None
  }

  /**
    Stores a connection under its player id and its token. A token the player
    had before is not removed from the token index.
   */
  function Add(m: Manager, c: Connection): (r: Manager)
    ensures Get(r, c.playerId) == Some(c) && GetBySession(r, c.sessionToken) == Some(c)
    ensures forall pid :: pid != c.playerId ==> Get(r, pid) == Get(m, pid)
    ensures forall t :: t != c.sessionToken && t in m.sessions ==> t in r.sessions && r.sessions[t] == m.sessions[t]
    ensures r.sessions.Keys == m.sessions.Keys + {c.sessionToken}
    ensures Consistent(m) && c.playerId !in m.connections && c.sessionToken !in m.sessions ==> Consistent(r)
  {
    Manager(m.connections[c.playerId := c], m.sessions[c.sessionToken := c.playerId])
  }

  /**
    Adding a second connection for the same player under a new token leaves the
    old token in the index, still resolving, now to the new connection.
   */
  lemma ReAddKeepsStaleToken(m: Manager, c1: Connection, c2: Connection)
    requires c1.playerId == c2.playerId && c1.sessionToken != c2.sessionToken
    ensures var r := Add(Add(m, c1), c2);
            && GetBySession(r, c1.sessionToken) == Some(c2)
            && !Consistent(r)
  {
    var r := Add(Add(m, c1), c2);
    assert r.sessions[c1.sessionToken] == c2.playerId;
  }

  /** Removes a player's connection and the token that connection carries. */
  function Remove(m: Manager, pid: int): (r: (Manager, Option<Connection>))
    ensures r.1 == Get(m, pid)
    ensures pid !in r.0.connections
    ensures forall q :: q != pid ==> Get(r.0, q) == Get(m, q)
    ensures r.1.Some? ==> r.0.sessions == m.sessions - {r.1.value.sessionToken}
    ensures r.1.None? ==> r.0 == m
    ensures Consistent(m) ==> Consistent(r.0)
  {
    if pid in m.connections then
      var c := m.connections[pid];
      (Manager(m.connections - {pid}, m.sessions - {c.sessionToken}), Some(c))
    else
      (m, None)
  }

  /** Marks a player's connection disconnected with the default grace window, if there is one. */
  function DisconnectPlayer(m: Manager, pid: int, now: nat): (r: Manager)
    ensures pid in m.connections ==> Get(r, pid) == Some(Disconnect(m.connections[pid], now))
    ensures pid !in m.connections ==> r == m
    ensures forall q :: q != pid ==> Get(r, q) == Get(m, q)
    ensures r.sessions == m.sessions
    ensures Consistent(m) ==> Consistent(r)
  {
    if pid in m.connections then
      m.(connections := m.connections[pid := Disconnect(m.connections[pid], now)])
    else
      m
  }

  /** The sweep's criterion: grace window over (or expired), or heartbeat timed out. */
  predicate IsStale(c: Connection, now: nat) {
    IsExpired(c.status, now) || IsHeartbeatTimeout(c, now)
  }

  function StaleIds(m: Manager, now: nat): set<int> {
    set pid | pid in m.connections && IsStale(m.connections[pid], now)
  }

  /** Some connection of `ids` carries token `t`. */
  ghost predicate HeldBy(conns: map<int, Connection>, ids: set<int>, t: string) {
    exists pid :: pid in ids && pid in conns && conns[pid].sessionToken == t
  }

  /** In a consistent registry a token is held by a connection of `ids` exactly when its owner is in `ids`. */
  lemma HeldByOwner(m: Manager, ids: set<int>, t: string)
    requires Consistent(m) && t in m.sessions
    ensures HeldBy(m.connections, ids, t) <==> m.sessions[t] in ids
  {
    var owner := m.sessions[t];
    assert owner in m.connections && m.connections[owner].sessionToken == t;
    if HeldBy(m.connections, ids, t) {
      var q :| q in ids && q in m.connections && m.connections[q].sessionToken == t;
      assert m.sessions[t] == q;
    }
  }

  /** The stale connections' ids, each once, in the map's arbitrary iteration order. */
  method CollectStale(m: Manager, now: nat) returns (expired: seq<int>)
    ensures Distinct(expired)
    ensures forall pid :: pid in expired <==> pid in StaleIds(m, now)
  {
    var remaining := m.connections.Keys;
    expired := [];
    while remaining != {}
      invariant remaining <= m.connections.Keys
      invariant Distinct(expired)
      invariant forall pid :: pid in expired <==> pid in StaleIds(m, now) && pid !in remaining
      decreases |remaining|
    {
      var pid := Pick(remaining);
      if IsStale(m.connections[pid], now) {
        expired := expired + [pid];
      }
      remaining := remaining - {pid};
    }
  }

  /**
    The sweep: collects every stale connection, then drops each from both
    indexes. The Rust implementation expires each collected connection before dropping it;
    since it is dropped, that is not observable.
   */
  method ExpireStale(m: Manager, now: nat) returns (r: Manager, expired: seq<int>)
    ensures Distinct(expired)
    ensures forall pid :: pid in expired <==> pid in m.connections && IsStale(m.connections[pid], now)
    ensures forall pid :: pid in r.connections <==> pid in m.connections && !IsStale(m.connections[pid], now)
    ensures forall pid :: pid in r.connections ==> r.connections[pid] == m.connections[pid]
    ensures forall t :: t in r.sessions <==> t in m.sessions && !HeldBy(m.connections, StaleIds(m, now), t)
    ensures forall t :: t in r.sessions ==> r.sessions[t] == m.sessions[t]
    ensures Consistent(m) ==> Consistent(r)
    ensures |expired| == 0 ==> r == m
  {
    expired := CollectStale(m, now);
    var conns := m.connections;
    var sessions := m.sessions;
    ghost var removed: set<int> := {};
    for i := 0 to |expired|
      invariant forall pid :: pid in removed <==> pid in expired[..i]
      invariant forall pid :: pid in conns <==> pid in m.connections && pid !in removed
      invariant forall pid :: pid in conns ==> conns[pid] == m.connections[pid]
      invariant forall t :: t in sessions <==> t in m.sessions && !HeldBy(m.connections, removed, t)
      invariant forall t :: t in sessions ==> sessions[t] == m.sessions[t]
    {
      var pid := expired[i];
      assert pid in expired;
      // Always present: the collected ids are distinct keys of the map.
      DistinctNotInPrefix(expired, i);
      PrefixExtend(expired, i);
      var token := conns[pid].sessionToken;
      sessions := sessions - {token};
      conns := conns - {pid};
      forall t ensures HeldBy(m.connections, removed + {pid}, t) <==> HeldBy(m.connections, removed, t) || t == token {
        if t == token {
          assert pid in removed + {pid} && pid in m.connections && m.connections[pid].sessionToken == t;
        }
      }
      removed := removed + {pid};
    }
    assert expired[..|expired|] == expired;
    forall pid ensures pid in removed <==> pid in StaleIds(m, now) {
      assert pid in removed <==> pid in expired;
    }
    assert removed == StaleIds(m, now);
    r := Manager(conns, sessions);
    if Consistent(m) {
      forall t | t in r.sessions
        ensures r.sessions[t] in r.connections && r.connections[r.sessions[t]].sessionToken == t
      {
        HeldByOwner(m, StaleIds(m, now), t);
      }
      forall pid | pid in r.connections
        ensures r.connections[pid].sessionToken in r.sessions && r.sessions[r.connections[pid].sessionToken] == pid
      {
        HeldByOwner(m, StaleIds(m, now), m.connections[pid].sessionToken);
      }
    }
  }

  /** The players whose connection is currently live. */
  function ConnectedPlayers(m: Manager): (r: set<int>)
    ensures forall pid :: pid in r <==> pid in m.connections && IsConnected(m.connections[pid].status)
  {
    set pid | pid in m.connections && IsConnected(m.connections[pid].status)
  }

  /** After a sweep at `now`, every remaining connection is live or still inside its grace window. */
  lemma SweepLeavesNoStale(m: Manager, r: Manager, expired: seq<int>, now: nat)
    requires forall pid :: pid in r.connections <==> pid in m.connections && !IsStale(m.connections[pid], now)
    requires forall pid :: pid in r.connections ==> r.connections[pid] == m.connections[pid]
    ensures forall pid :: pid in r.connections ==>
              IsConnected(r.connections[pid].status) || IsReconnectable(r.connections[pid].status, now)
    ensures forall pid :: pid in ConnectedPlayers(r) ==> !IsHeartbeatTimeout(r.connections[pid], now)
  {
  }
}

=== FILE: game.dfy ===
/**
  Game sessions: the status machine, the 5x5 letter grid with its scoring and
  adjacency, the roster and turn cycle, final scores, used words, and the
  registry of games indexed by player.
 */
module Games {
  import opened Common
  import Ascii

  const GridSize: nat := 5
  const DefaultMaxRounds: nat := 5
  /** The roster limit `add_player` enforces. */
  const MaxGamePlayers: nat := 6

  // ---------------------------------------------------------------------------
  // Status

  datatype GameStatus = Idle | Starting | InProgress | Finished | Cancelled

  /** Only a game in progress accepts actions; an active game is never over. */
  predicate IsActive(s: GameStatus)
    ensures IsActive(s) ==> !IsTerminal(s)
  {
    s == InProgress
  }

  /** Finished and cancelled games never change again. */
  predicate IsTerminal(s: GameStatus) {
    s == Finished || s == Cancelled
  }

  lemma ActiveIsNotTerminal(s: GameStatus)
    ensures IsActive(s) ==> !IsTerminal(s)
    ensures !IsActive(s) && !IsTerminal(s) <==> s in {Idle, Starting}
  {
  }

  // ---------------------------------------------------------------------------
  // Letters and the grid

  /**
    Point value of a letter, decided on its ASCII upper-case form; anything that
    is not one of the listed letters is worth 1.
   */
  function LetterValue(c: char): (v: nat)
    ensures 1 <= v <= 10
  {
    match Ascii.UpperChar(c)
    case 'A' | 'E' | 'I' | 'O' | 'U' | 'L' | 'N' | 'S' | 'T' | 'R' => 1
    case 'D' | 'G' => 2
    case 'B' | 'C' | 'M' | 'P' => 3
    case 'F' | 'H' | 'V' | 'W' | 'Y' => 4
    case 'K' => 5
    case 'J' | 'X' => 8
    case 'Q' | 'Z' => 10
    case _ => 1
  }

  /** Scoring ignores case. */
  lemma LetterValueIgnoresCase(c: char)
    ensures LetterValue(Ascii.LowerChar(c)) == LetterValue(c)
    ensures LetterValue(Ascii.UpperChar(c)) == LetterValue(c)
  {
  }

  /** The values the scoring table gives, in both cases. */
  lemma LetterValueExamples()
    ensures LetterValue('A') == 1 && LetterValue('E') == 1 && LetterValue('D') == 2
    ensures LetterValue('B') == 3 && LetterValue('K') == 5 && LetterValue('X') == 8
    ensures LetterValue('Z') == 10 && LetterValue('z') == 10 && LetterValue('q') == 10
    ensures LetterValue('?') == 1
  {
  }

  datatype Multiplier = DoubleLetter | TripleLetter | DoubleWord

  datatype GridCell = GridCell(letter: char, value: nat, multiplier: Option<Multiplier>, hasGem: bool)

  /** A plain cell: the letter stored upper-case, with the value it scores. */
  function NewCell(c: char): (cell: GridCell)
    ensures !Ascii.IsLower(cell.letter) && cell.value == LetterValue(cell.letter)
    ensures Ascii.LowerChar(cell.letter) == Ascii.LowerChar(c)
    ensures cell.multiplier == None && !cell.hasGem
  {
    GridCell(Ascii.UpperChar(c), LetterValue(c), None, false)
  }

  function UniformGrid(cell: GridCell): seq<seq<GridCell>> {
    seq(GridSize, _ => seq(GridSize, _ => cell))
  }

  /** Five rows of five cells. */
  type Grid = g: seq<seq<GridCell>> | |g| == GridSize && forall i :: 0 <= i < |g| ==> |g[i]| == GridSize
    witness UniformGrid(GridCell('A', 1, None, false))

  /** A grid position; coordinates are unsigned machine words, so never negative. */
  datatype Position = Position(row: nat, col: nat)

  /** On the grid; on-grid coordinates pass the 32-bit cast unchanged. */
  predicate IsValid(p: Position)
    ensures IsValid(p) ==> AsI32(p.row) == p.row && AsI32(p.col) == p.col
  {
    p.row < GridSize && p.col < GridSize
  }

  // ---------------------------------------------------------------------------
  // Adjacency

  const TwoTo31: int := 0x8000_0000
  const TwoTo32: int := 0x1_0000_0000

  /** The 32-bit two's-complement value of the low 32 bits of `x` (an `as i32` cast). */
  function AsI32(x: int): (r: int)
    ensures -TwoTo31 <= r < TwoTo31
    ensures -TwoTo31 <= x < TwoTo31 ==> r == x
  {
    var low := x % TwoTo32;
    if low < TwoTo31 then low else low - TwoTo32
  }

  /** 32-bit absolute value as release builds compute it: the minimum maps to itself. */
  function AbsI32(x: int): int
    requires -TwoTo31 <= x < TwoTo31
  {
    if x == -TwoTo31 then x else if x < 0 then -x else x
  }

  function Dist(a: nat, b: nat): nat {
    if a <= b then b - a else a - b
  }

  /** Chebyshev (king-move) distance. */
  function Chebyshev(p: Position, q: Position): nat {
    var dr := Dist(p.row, q.row);
    var dc := Dist(p.col, q.col);
    if dr <= dc then dc else dr
  }

  /**
    Adjacency as written: each coordinate is cast to 32 bits before subtracting,
    and the difference and its absolute value wrap.
   */
  predicate IsAdjacentToAsWritten(p: Position, q: Position)
    ensures IsAdjacentToAsWritten(p, q) ==> p != q
  {
    var rd := AbsI32(AsI32(AsI32(p.row) - AsI32(q.row)));
    var cd := AbsI32(AsI32(AsI32(p.col) - AsI32(q.col)));
    rd <= 1 && cd <= 1 && (rd != 0 || cd != 0)
  }

  /** Adjacency as intended: one king move apart, diagonals included. */
  predicate IsAdjacentTo(p: Position, q: Position) {
    Dist(p.row, q.row) <= 1 && Dist(p.col, q.col) <= 1 && p != q
  }

  /** Adjacency is irreflexive, symmetric, and means Chebyshev distance exactly 1. */
  lemma AdjacencyLaws(p: Position, q: Position)
    ensures !IsAdjacentTo(p, p)
    ensures IsAdjacentTo(p, q) <==> IsAdjacentTo(q, p)
    ensures IsAdjacentTo(p, q) <==> Chebyshev(p, q) == 1
  {
  }

  /** While every coordinate fits in 31 bits the cast changes nothing: both adjacencies agree. */
  lemma AdjacencyAgreesOnSmallCoordinates(p: Position, q: Position)
    requires p.row < TwoTo31 && p.col < TwoTo31 && q.row < TwoTo31 && q.col < TwoTo31
    ensures IsAdjacentToAsWritten(p, q) <==> IsAdjacentTo(p, q)
  {
    assert AsI32(p.row) - AsI32(q.row) == p.row - q.row;
    assert AsI32(p.col) - AsI32(q.col) == p.col - q.col;
  }

  /** On the grid, in particular, the written adjacency is the intended one. */
  lemma AdjacencyAgreesOnGrid(p: Position, q: Position)
    requires IsValid(p) && IsValid(q)
    ensures IsAdjacentToAsWritten(p, q) <==> IsAdjacentTo(p, q)
  {
    AdjacencyAgreesOnSmallCoordinates(p, q);
  }

  /**
    The cast truncates: a row 2^32 away reads as the same row, so two positions
    more than four billion rows apart count as adjacent.
   */
  lemma AdjacencyTruncationCounterexample()
    ensures IsAdjacentToAsWritten(Position(0, 0), Position(TwoTo32, 1))
    ensures !IsAdjacentTo(Position(0, 0), Position(TwoTo32, 1))
  {
  }

  /** The neighbours of the centre square are exactly its eight surrounding squares. */
  lemma CentreNeighbours()
    ensures forall r: nat, c: nat :: r < GridSize && c < GridSize ==>
              (IsAdjacentTo(Position(2, 2), Position(r, c)) <==> 1 <= r <= 3 && 1 <= c <= 3 && (r, c) != (2, 2))
    ensures !IsAdjacentTo(Position(2, 2), Position(0, 0)) && !IsAdjacentTo(Position(2, 2), Position(4, 4))
  {
  }

  // ---------------------------------------------------------------------------
  // Players and games

  datatype GamePlayer = GamePlayer(
    playerId: int,
    userId: string,
    username: string,
    avatarUrl: Option<string>,
    score: int,
    gems: int,
    turnOrder: nat,
    isConnected: bool,
    wordsPlayed: seq<string>)

  function NewGamePlayer(playerId: int, userId: string, username: string, avatarUrl: Option<string>, turnOrder: nat): (p: GamePlayer)
    ensures p.playerId == playerId && p.score == 0 && p.gems == 0 && p.isConnected && p.wordsPlayed == []
  {
    GamePlayer(playerId, userId, username, avatarUrl, 0, 0, turnOrder, true, [])
  }

  datatype Spectator = Spectator(playerId: int, userId: string, username: string, avatarUrl: Option<string>)

  /** A game session; the timer vote and the timestamps are not modelled. */
  datatype Game = Game(
    id: string,
    lobbyId: string,
    status: GameStatus,
    grid: Grid,
    players: map<int, GamePlayer>,
    turnOrder: seq<int>,
    currentTurnIndex: nat,
    round: nat,
    maxRounds: nat,
    usedWords: set<string>,
    spectators: map<int, Spectator>)

  datatype GameError =
    | InvalidStatus | AlreadyPlayer | NotPlayer | AlreadySpectator | NotSpectator | NotYourTurn
    | GameStarted | GameNotActive | NotEnoughPlayers | TooManyPlayers | WordUsed | InvalidPath | PathTooShort

  /**
    Roster invariant: at most six players, each filed under its own id, and the
    turn order lists each player exactly once.
   */
  predicate RosterValid(g: Game) {
    && |g.players| <= MaxGamePlayers
    && (forall pid :: pid in g.players ==> g.players[pid].playerId == pid)
    && Distinct(g.turnOrder)
    && (forall i :: 0 <= i < |g.turnOrder| ==> g.turnOrder[i] in g.players)
    && (forall pid :: pid in g.players ==> pid in g.turnOrder)
  }

  /** A valid roster's turn order is as long as the roster. */
  lemma TurnOrderCoversRoster(g: Game)
    requires RosterValid(g)
    ensures |g.turnOrder| == |g.players|
  {
    DistinctSize(g.turnOrder);
    forall x ensures x in (set y | y in g.turnOrder) <==> x in g.players.Keys {
    }
    assert (set x | x in g.turnOrder) == g.players.Keys;
  }

  /** A new game: idle, round 1 of five, no players, no words used. */
  function NewGame(id: string, lobbyId: string, grid: Grid): (g: Game)
    ensures g.status == Idle && g.round == 1 && g.maxRounds == DefaultMaxRounds
    ensures g.players == map[] && g.turnOrder == [] && g.usedWords == {}
    ensures g.id == id && g.lobbyId == lobbyId && g.grid == grid
    ensures g.currentTurnIndex == 0 && g.spectators == map[]
    ensures RosterValid(g) && !ShouldEnd(g) && CurrentPlayerId(g).None?
  {
    Game(id, lobbyId, Idle, grid, map[], [], 0, 1, DefaultMaxRounds, {}, map[])
  }

  /**
    Seats a player at the end of the turn order. Refused once the game has left
    `Idle`, then for a duplicate, then when six are seated.
   */
  function AddPlayer(g: Game, p: GamePlayer): (r: Result<Game, GameError>)
    ensures g.status != Idle ==> r == Err(GameStarted)
    ensures g.status == Idle && p.playerId in g.players ==> r == Err(AlreadyPlayer)
    ensures g.status == Idle && p.playerId !in g.players && |g.players| >= MaxGamePlayers ==> r == Err(TooManyPlayers)
    ensures r.Ok? <==> g.status == Idle && p.playerId !in g.players && |g.players| < MaxGamePlayers
    ensures r.Ok? ==> && r.value.players == g.players[p.playerId := p]
                      && r.value.turnOrder == g.turnOrder + [p.playerId]
                      && r.value.(players := g.players, turnOrder := g.turnOrder) == g
    ensures RosterValid(g) && r.Ok? ==> RosterValid(r.value) && |r.value.turnOrder| == |r.value.players|
  {
    if g.status != Idle then Err(GameStarted)
    else if p.playerId in g.players then Err(AlreadyPlayer)
    else if |g.players| >= MaxGamePlayers then Err(TooManyPlayers)
    else
      var r := g.(players := g.players[p.playerId := p], turnOrder := g.turnOrder + [p.playerId]);
      assert RosterValid(g) ==> RosterValid(r) && |r.turnOrder| == |r.players| by {
        if RosterValid(g) {
          assert RosterValid(r);
          TurnOrderCoversRoster(r);
        }
      }
      Ok(r)
  }

  /** Moves an idle game with at least one player into play; otherwise nothing changes. */
  function Start(g: Game): (r: Result<Game, GameError>)
    ensures g.status != Idle ==> r == Err(InvalidStatus)
    ensures g.status == Idle && |g.players| == 0 ==> r == Err(NotEnoughPlayers)
    ensures r.Ok? <==> g.status == Idle && |g.players| > 0
    ensures r.Ok? ==> IsActive(r.value.status) && r.value.(status := g.status) == g
  {
    if g.status != Idle then Err(InvalidStatus)
    else if |g.players| == 0 then Err(NotEnoughPlayers)
    else Ok(g.(status := InProgress))
  }

  /** Whose turn it is, if the turn index points into the turn order. */
  function CurrentPlayerId(g: Game): (r: Option<int>)
    ensures r.Some? <==> g.currentTurnIndex < |g.turnOrder|
    ensures r.Some? ==> r.value == g.turnOrder[g.currentTurnIndex]
  {
    if g.currentTurnIndex < |g.turnOrder| then Some(g.turnOrder[g.currentTurnIndex]) else None
  }

  // ---------------------------------------------------------------------------
  // Turn arithmetic

  lemma MulAtLeast(d: int, n: int)
    requires n > 0 && d >= 1
    ensures d * n >= n
  {
  }

  /** Quotient and remainder are determined by any decomposition a = q*n + r with 0 <= r < n. */
  lemma DivModUnique(a: int, n: int, q: int, r: int)
    requires n > 0 && 0 <= r < n && a == q * n + r
    ensures a / n == q && a % n == r
  {
    var q0, r0 := a / n, a % n;
    assert (q0 - q) * n == r - r0;
    if q0 - q >= 1 {
      MulAtLeast(q0 - q, n);
    } else if q - q0 >= 1 {
      MulAtLeast(q - q0, n);
    }
  }

  /** One more step: the remainder advances modulo n, and the quotient grows exactly on wrap-around. */
  lemma ModStep(a: nat, n: nat)
    requires n > 0
    ensures ((a % n) + 1) % n == (a + 1) % n
    ensures (a + 1) / n == a / n + (if (a + 1) % n == 0 then 1 else 0)
  {
    var q, r := a / n, a % n;
    if r + 1 == n {
      DivModUnique(a + 1, n, q + 1, 0);
      DivModUnique(r + 1, n, 1, 0);
    } else {
      DivModUnique(a + 1, n, q, r + 1);
      DivModUnique(r + 1, n, 0, r + 1);
    }
  }

  // ---------------------------------------------------------------------------
  // Turns and rounds

  /**
    Passes the turn to the next player in order, wrapping to the first and then
    counting a new round. Returns the new current player and round. The Rust implementation
    divides by the turn order's length, so it must not be empty.
   */
  function AdvanceTurn(g: Game): (r: (Game, int, nat))
    requires |g.turnOrder| > 0
    ensures r.0.currentTurnIndex < |g.turnOrder|
    ensures r.0.currentTurnIndex == (g.currentTurnIndex + 1) % |g.turnOrder|
    ensures r.0.round == g.round + (if r.0.currentTurnIndex == 0 then 1 else 0)
    ensures r.1 == g.turnOrder[r.0.currentTurnIndex] && r.2 == r.0.round
    ensures CurrentPlayerId(r.0) == Some(r.1)
    ensures r.0.(currentTurnIndex := g.currentTurnIndex, round := g.round) == g
  {
    var index := (g.currentTurnIndex + 1) % |g.turnOrder|;
    var round := if index == 0 then g.round + 1 else g.round;
    var next := g.(currentTurnIndex := index, round := round);
    (next, match CurrentPlayerId(next) case Some(pid) => pid case None => 0, round)
  }

  /** The game after `k` turn advances. */
  function AdvanceTimes(g: Game, k: nat): (r: Game)
    requires |g.turnOrder| > 0
    ensures r.turnOrder == g.turnOrder
    ensures r.(currentTurnIndex := g.currentTurnIndex, round := g.round) == g
    decreases k
  {
    if k == 0 then g else AdvanceTurn(AdvanceTimes(g, k - 1)).0
  }

  /**
    After `k` advances the turn index has moved `k` places around the order, and
    the round has grown by the number of completed passes.
   */
  lemma {:induction false} AdvanceTimesCounts(g: Game, k: nat)
    requires |g.turnOrder| > 0 && g.currentTurnIndex < |g.turnOrder|
    ensures AdvanceTimes(g, k).currentTurnIndex == (g.currentTurnIndex + k) % |g.turnOrder|
    ensures AdvanceTimes(g, k).round == g.round + (g.currentTurnIndex + k) / |g.turnOrder|
    decreases k
  {
    var n := |g.turnOrder|;
    if k == 0 {
      DivModUnique(g.currentTurnIndex, n, 0, g.currentTurnIndex);
    } else {
      var a := g.currentTurnIndex + k - 1;
      var prev := AdvanceTimes(g, k - 1);
      AdvanceTimesCounts(g, k - 1);
      assert prev.turnOrder == g.turnOrder;
      assert prev.currentTurnIndex == a % n && prev.round == g.round + a / n;
      ModStep(a, n);
      assert AdvanceTimes(g, k) == AdvanceTurn(prev).0;
    }
  }

  /** Past the last round. */
  predicate ShouldEnd(g: Game) {
    g.round > g.maxRounds
  }

  /** Advancing the turn never brings a game that should end back into play. */
  lemma {:induction false} EndIsFinal(g: Game, k: nat)
    requires |g.turnOrder| > 0
    ensures ShouldEnd(g) ==> ShouldEnd(AdvanceTimes(g, k))
    ensures AdvanceTimes(g, k).round >= g.round
    decreases k
  {
    if k > 0 {
      EndIsFinal(g, k - 1);
    }
  }

  lemma MulMono(a: int, b: int, n: int)
    requires a <= b && n >= 0
    ensures a * n <= b * n
  {
    assert b * n - a * n == (b - a) * n;
  }

  /** Whole passes: at least `m` passes of `n` turns are complete exactly when `k >= m * n`. */
  lemma DivAtLeast(k: nat, n: nat, m: nat)
    requires n > 0
    ensures k / n >= m <==> k >= m * n
  {
    var q, r := k / n, k % n;
    assert k == q * n + r;
    if q >= m {
      MulMono(m, q, n);
    } else {
      MulMono(q + 1, m, n);
      assert (q + 1) * n == q * n + n;
    }
  }

  /**
    From the first player's turn in round 1, the game should end after exactly
    `max_rounds` full passes of the turn order, and not one turn sooner.
   */
  lemma EndsAfterMaxRounds(g: Game, k: nat)
    requires |g.turnOrder| > 0 && g.currentTurnIndex == 0 && g.round == 1
    ensures ShouldEnd(AdvanceTimes(g, k)) <==> k >= g.maxRounds * |g.turnOrder|
  {
    AdvanceTimesCounts(g, k);
    DivAtLeast(k, |g.turnOrder|, g.maxRounds);
  }

  /** In a valid roster, whoever's turn it is has a seat at the table. */
  lemma CurrentIsSeated(g: Game)
    requires RosterValid(g)
    ensures CurrentPlayerId(g).Some? ==> CurrentPlayerId(g).value in g.players
  {
  }

  /** After `k` advances it is the turn of the player `k` places further round the order. */
  lemma CurrentAfterAdvances(g: Game, k: nat)
    requires |g.turnOrder| > 0 && g.currentTurnIndex < |g.turnOrder|
    ensures CurrentPlayerId(AdvanceTimes(g, k)) == Some(g.turnOrder[(g.currentTurnIndex + k) % |g.turnOrder|])
  {
    AdvanceTimesCounts(g, k);
  }

  /**
    Two players: player 1 moves first; one advance gives player 2 in round 1, a
    second returns to player 1 and starts round 2.
   */
  lemma TwoPlayerTurns(grid: Grid)
    ensures var g0 := NewGame("game-1", "lobby-1", grid);
            var g1 := AddPlayer(g0, NewGamePlayer(1, "1000", "Player1", None, 0));
            && g1.Ok?
            && var g2 := AddPlayer(g1.value, NewGamePlayer(2, "2000", "Player2", None, 1));
            && g2.Ok? && |g2.value.players| == 2
            && var g3 := Start(g2.value);
            && g3.Ok? && g3.value.status == InProgress && CurrentPlayerId(g3.value) == Some(1)
            && var (g4, p4, r4) := AdvanceTurn(g3.value);
            && p4 == 2 && r4 == 1 && CurrentPlayerId(g4) == Some(2)
            && var (g5, p5, r5) := AdvanceTurn(g4);
            && p5 == 1 && r5 == 2 && CurrentPlayerId(g5) == Some(1)
  {
    var g2 := AddPlayer(AddPlayer(NewGame("game-1", "lobby-1", grid), NewGamePlayer(1, "1000", "Player1", None, 0)).value,
                        NewGamePlayer(2, "2000", "Player2", None, 1)).value;
    assert g2.turnOrder == [1, 2];
  }

  // ---------------------------------------------------------------------------
  // Ending a game

  /** One line of the final scoreboard. */
  datatype ScoreEntry = ScoreEntry(playerId: int, userId: string, score: int)

  function EntryOf(p: GamePlayer): ScoreEntry {
    ScoreEntry(p.playerId, p.userId, p.score)
  }

  /** The scoreboard lines of a game's players, in no particular order. */
  function ScoreSet(g: Game): set<ScoreEntry> {
    set pid | pid in g.players :: EntryOf(g.players[pid])
  }

  /** Highest score first. */
  predicate SortedByScore(s: seq<ScoreEntry>) {
    forall i, j :: 0 <= i < j < |s| ==> s[i].score >= s[j].score
  }

  /** Inserts `x` after every entry scoring at least as much, so equal scores keep their order. */
  function InsertByScore(x: ScoreEntry, s: seq<ScoreEntry>): (r: seq<ScoreEntry>)
    ensures |r| == |s| + 1 && multiset(r) == multiset(s) + multiset{x}
  {
    if s == [] then [x]
    else if s[0].score >= x.score then
      assert s == [s[0]] + s[1..];
      [s[0]] + InsertByScore(x, s[1..])
    else
      [x] + s
  }

  lemma {:induction false} InsertKeepsSorted(x: ScoreEntry, s: seq<ScoreEntry>)
    requires SortedByScore(s)
    ensures SortedByScore(InsertByScore(x, s))
  {
    if s != [] && s[0].score >= x.score {
      var rest := InsertByScore(x, s[1..]);
      InsertKeepsSorted(x, s[1..]);
      forall e | e in rest ensures s[0].score >= e.score {
        assert e in multiset(rest);
        if e != x {
          assert e in multiset(s[1..]);
        }
      }
    }
  }

  lemma {:induction false} InsertKeepsDistinct(x: ScoreEntry, s: seq<ScoreEntry>)
    requires Distinct(s) && x !in s
    ensures Distinct(InsertByScore(x, s))
  {
    if s == [] {
    } else if s[0].score >= x.score {
      var rest := InsertByScore(x, s[1..]);
      InsertKeepsDistinct(x, s[1..]);
      assert s[0] !in multiset(rest) by {
        assert s[0] !in s[1..];
      }
      DistinctCons(s[0], rest);
    } else {
      DistinctCons(x, s);
    }
  }

  lemma DistinctCons(h: ScoreEntry, t: seq<ScoreEntry>)
    requires Distinct(t) && h !in t
    ensures Distinct([h] + t)
  {
    var r := [h] + t;
    forall i, j | 0 <= i < j < |r| ensures r[i] != r[j] {
      assert r[j] == t[j - 1];
      if i > 0 {
        assert r[i] == t[i - 1];
      }
    }
  }

  /** Stable insertion sort by descending score. */
  function SortByScore(s: seq<ScoreEntry>): (r: seq<ScoreEntry>)
    ensures |r| == |s| && multiset(r) == multiset(s)
    ensures SortedByScore(r)
    ensures Distinct(s) ==> Distinct(r)
    decreases |s|
  {
    if s == [] then []
    else
      var init := s[..|s| - 1];
      var last := s[|s| - 1];
      assert s == init + [last];
      var sorted := SortByScore(init);
      InsertKeepsSorted(last, sorted);
      assert Distinct(s) ==> Distinct(InsertByScore(last, sorted)) by {
        if Distinct(s) {
          assert last !in init;
          assert last !in multiset(sorted);
          InsertKeepsDistinct(last, sorted);
        }
      }
      InsertByScore(last, sorted)
  }

  /** The players' scoreboard lines in the map's arbitrary iteration order. */
  method CollectScores(g: Game) returns (entries: seq<ScoreEntry>)
    ensures |entries| == |g.players|
    ensures forall e :: e in entries <==> e in ScoreSet(g)
    ensures RosterValid(g) ==> Distinct(entries)
  {
    var remaining := g.players.Keys;
    entries := [];
    while remaining != {}
      invariant remaining <= g.players.Keys
      invariant |entries| + |remaining| == |g.players.Keys|
      invariant forall e :: e in entries <==>
                  exists pid :: pid in g.players && pid !in remaining && e == EntryOf(g.players[pid])
      invariant RosterValid(g) ==> Distinct(entries)
      invariant RosterValid(g) ==> forall i :: 0 <= i < |entries| ==> entries[i].playerId !in remaining
      decreases |remaining|
    {
      var pid := Pick(remaining);
      entries := entries + [EntryOf(g.players[pid])];
      remaining := remaining - {pid};
    }
  }

  /**
    Ends a game in progress: it becomes `Finished` and the result is every
    player's scoreboard line, highest score first. Any other status is refused
    and the game is left as it was.
   */
  method End(g: Game) returns (r: Game, scores: Result<seq<ScoreEntry>, GameError>)
    ensures !IsActive(g.status) ==> r == g && scores == Err(InvalidStatus)
    ensures IsActive(g.status) ==> r == g.(status := Finished) && scores.Ok?
    ensures scores.Ok? ==> && SortedByScore(scores.value)
                           && |scores.value| == |g.players|
                           && forall e :: e in scores.value <==> e in ScoreSet(g)
    ensures scores.Ok? && RosterValid(g) ==> Distinct(scores.value)
  {
    if !IsActive(g.status) {
      return g, Err(InvalidStatus);
    }
    r := g.(status := Finished);
    var entries := CollectScores(g);
    var sorted := SortByScore(entries);
    forall e ensures e in sorted <==> e in entries {
      assert e in sorted <==> e in multiset(sorted);
    }
    scores := Ok(sorted);
  }

  /** Cancels a game from any status. */
  function Cancel(g: Game): (r: Game)
    ensures r.status == Cancelled && IsTerminal(r.status) && !IsActive(r.status)
    ensures r.(status := g.status) == g
  {
    g.(status := Cancelled)
  }

  // ---------------------------------------------------------------------------
  // Words and cells

  /** Whether a word, compared without regard to case, was already played. */
  predicate IsWordUsed(g: Game, word: string) {
    Ascii.Upper(word) in g.usedWords
  }

  /** Records a word as used, whatever its case. */
  function UseWord(g: Game, word: string): (r: Game)
    ensures forall w :: IsWordUsed(r, w) <==> IsWordUsed(g, w) || Ascii.Upper(w) == Ascii.Upper(word)
    ensures IsWordUsed(r, word)
    ensures r.(usedWords := g.usedWords) == g
  {
    Ascii.UpperIdempotent(word);
    g.(usedWords := g.usedWords + {Ascii.Upper(word)})
  }

  /** A word played in one case counts as played in every case. */
  lemma UsedWordIgnoresCase(g: Game, word: string)
    ensures IsWordUsed(UseWord(g, word), Ascii.Lower(word))
    ensures IsWordUsed(UseWord(g, word), Ascii.Upper(word))
  {
    Ascii.UpperOfLower(word);
    Ascii.UpperIdempotent(word);
  }

  /** Marking "test" makes "TEST" and "test" used, in a game where neither was. */
  lemma WordTrackingScenario(g: Game)
    requires g.usedWords == {}
    ensures !IsWordUsed(g, "TEST")
    ensures IsWordUsed(UseWord(g, "test"), "TEST") && IsWordUsed(UseWord(g, "test"), "test")
  {
    assert Ascii.Upper("test") == "TEST";
    assert Ascii.Upper("TEST") == "TEST";
  }

  /** The cell at a position on the grid, or nothing off the grid. */
  function GetCell(g: Game, p: Position): (r: Option<GridCell>)
    ensures r.Some? <==> p.row < GridSize && p.col < GridSize
    ensures r.Some? ==> r.value == g.grid[p.row][p.col]
  {
    if IsValid(p) then Some(g.grid[p.row][p.col]) else None
  }

  /** All positions of a path lie on the grid. */
  predicate OnGrid(path: seq<Position>) {
    forall i :: 0 <= i < |path| ==> IsValid(path[i])
  }

  /** The letters along a path; positions off the grid are skipped. */
  function ExtractWord(g: Game, path: seq<Position>): (w: string)
    ensures |w| <= |path|
    ensures |w| == |path| <==> OnGrid(path)
    ensures OnGrid(path) ==> forall i :: 0 <= i < |path| ==> w[i] == g.grid[path[i].row][path[i].col].letter
    decreases |path|
  {
    if path == [] then ""
    else
      var rest := ExtractWord(g, path[1..]);
      assert OnGrid(path) <==> IsValid(path[0]) && OnGrid(path[1..]) by {
        if IsValid(path[0]) && OnGrid(path[1..]) {
          forall i | 0 <= i < |path| ensures IsValid(path[i]) {
            if i > 0 { assert path[i] == path[1..][i - 1]; }
          }
        }
      }
      match GetCell(g, path[0])
      case Some(cell) => [cell.letter] + rest
      case None => rest
  }

  /** Extraction works piecewise: the word along a joined path is the joined words. */
  lemma {:induction false} ExtractWordAppend(g: Game, a: seq<Position>, b: seq<Position>)
    ensures ExtractWord(g, a + b) == ExtractWord(g, a) + ExtractWord(g, b)
    decreases |a|
  {
    if a == [] {
      assert a + b == b;
    } else {
      assert (a + b)[0] == a[0];
      assert (a + b)[1..] == a[1..] + b;
      ExtractWordAppend(g, a[1..], b);
    }
  }

  // ---------------------------------------------------------------------------
  // The registry

  datatype GameManager = GameManager(
    games: map<string, Game>,
    playerIndex: map<int, string>,
    spectatorIndex: map<int, string>)

  function EmptyGameManager(): (m: GameManager)
    ensures Indexed(m)
  {
    GameManager(map[], map[], map[])
  }

  /**
    The player index and the rosters agree: an indexed player is seated in the
    game it is indexed to, and every seated player is indexed to its game.
   */
  predicate Indexed(m: GameManager) {
    && (forall pid :: pid in m.playerIndex ==>
          m.playerIndex[pid] in m.games && pid in m.games[m.playerIndex[pid]].players)
    && (forall gid, pid :: gid in m.games && pid in m.games[gid].players ==>
          pid in m.playerIndex && m.playerIndex[pid] == gid)
  }

  /** The game a player is indexed to, if both exist. */
  function GetForPlayer(m: GameManager, pid: int): (r: Option<Game>)
    ensures r.Some? <==> pid in m.playerIndex && m.playerIndex[pid] in m.games
    ensures r.Some? ==> r.value == m.games[m.playerIndex[pid]]
  {
    if pid in m.playerIndex && m.playerIndex[pid] in m.games then Some(m.games[m.playerIndex[pid]]) else None
  }

  /** Stores a game and indexes each of its players to it. */
  function Add(m: GameManager, g: Game): (r: GameManager)
    ensures r.games == m.games[g.id := g]
    ensures forall pid :: pid in g.players ==> GetForPlayer(r, pid) == Some(g)
    ensures forall pid :: pid !in g.players ==>
              (pid in r.playerIndex <==> pid in m.playerIndex) &&
              (pid in r.playerIndex ==> r.playerIndex[pid] == m.playerIndex[pid])
    ensures r.spectatorIndex == m.spectatorIndex
    ensures Indexed(m) && g.id !in m.games && (forall pid :: pid in g.players ==> pid !in m.playerIndex)
            ==> Indexed(r)
  {
    var index := map pid | pid in m.playerIndex.Keys + g.players.Keys ::
                   if pid in g.players then g.id else m.playerIndex[pid];
    GameManager(m.games[g.id := g], index, m.spectatorIndex)
  }

  /** Removes a game together with its players' and spectators' index entries. */
  function Remove(m: GameManager, gameId: string): (r: (GameManager, Option<Game>))
    ensures r.1.Some? <==> gameId in m.games
    ensures r.1.Some? ==> r.1.value == m.games[gameId]
    ensures r.0.games == m.games - {gameId}
    ensures r.1.None? ==> r.0 == m
    ensures r.1.Some? ==> && r.0.playerIndex == m.playerIndex - r.1.value.players.Keys
                          && r.0.spectatorIndex == m.spectatorIndex - r.1.value.spectators.Keys
    ensures Indexed(m) ==> Indexed(r.0) && forall pid :: pid in r.0.playerIndex ==> r.0.playerIndex[pid] != gameId
  {
    if gameId !in m.games then (m, None)
    else
      var g := m.games[gameId];
      RemoveKeepsIndexed(m, gameId);
      (GameManager(m.games - {gameId}, m.playerIndex - g.players.Keys, m.spectatorIndex - g.spectators.Keys), Some(g))
  }

  lemma RemoveKeepsIndexed(m: GameManager, gameId: string)
    requires gameId in m.games
    ensures var r := m.(games := m.games - {gameId},
                        playerIndex := m.playerIndex - m.games[gameId].players.Keys);
            Indexed(m) ==> Indexed(r) && forall pid :: pid in r.playerIndex ==> r.playerIndex[pid] != gameId
  {
    var r := m.(games := m.games - {gameId}, playerIndex := m.playerIndex - m.games[gameId].players.Keys);
    if Indexed(m) {
      forall gid, pid | gid in r.games && pid in r.games[gid].players
        ensures pid in r.playerIndex && r.playerIndex[pid] == gid
      {
        assert m.playerIndex[pid] == gid;
      }
    }
  }

  /** The ids of finished or cancelled games. */
  function TerminalIds(m: GameManager): set<string> {
    set gid | gid in m.games && IsTerminal(m.games[gid].status)
  }

  /** The terminal games' ids, each once, in the map's arbitrary iteration order. */
  method CollectTerminal(m: GameManager) returns (ids: seq<string>)
    ensures Distinct(ids)
    ensures forall gid :: gid in ids <==> gid in TerminalIds(m)
  {
    var remaining := m.games.Keys;
    ids := [];
    while remaining != {}
      invariant remaining <= m.games.Keys
      invariant Distinct(ids)
      invariant forall gid :: gid in ids <==> gid in TerminalIds(m) && gid !in remaining
      decreases |remaining|
    {
      var gid := Pick(remaining);
      if IsTerminal(m.games[gid].status) {
        ids := ids + [gid];
      }
      remaining := remaining - {gid};
    }
  }

  /** The players seated in the stored games among `gone`. */
  ghost function PlayersOf(m: GameManager, gone: set<string>): set<int> {
    set gid, pid | gid in gone && gid in m.games && pid in m.games[gid].players :: pid
  }

  /** The spectators of the stored games among `gone`. */
  ghost function SpectatorsOf(m: GameManager, gone: set<string>): set<int> {
    set gid, pid | gid in gone && gid in m.games && pid in m.games[gid].spectators :: pid
  }

  /** Adding a game to `gone` adds its players and its spectators. */
  lemma PeopleOfOneMore(m: GameManager, gone: set<string>, gid: string)
    requires gid in m.games
    ensures PlayersOf(m, gone + {gid}) == PlayersOf(m, gone) + m.games[gid].players.Keys
    ensures SpectatorsOf(m, gone + {gid}) == SpectatorsOf(m, gone) + m.games[gid].spectators.Keys
  {
    forall pid | pid in m.games[gid].players ensures pid in PlayersOf(m, gone + {gid}) { }
    forall pid | pid in m.games[gid].spectators ensures pid in SpectatorsOf(m, gone + {gid}) { }
  }

  /**
    What removing the games `gone` from `m` leaves in `r`: the other games
    untouched, and exactly the removed games' player and spectator entries
    dropped.
   */
  ghost predicate SweptOf(m: GameManager, r: GameManager, gone: set<string>) {
    && (forall gid :: gid in r.games <==> gid in m.games && gid !in gone)
    && (forall gid :: gid in r.games ==> r.games[gid] == m.games[gid])
    && r.playerIndex == m.playerIndex - PlayersOf(m, gone)
    && r.spectatorIndex == m.spectatorIndex - SpectatorsOf(m, gone)
    && (Indexed(m) ==> Indexed(r))
  }

  lemma SweepStep(m: GameManager, r: GameManager, gone: set<string>, gid: string)
    requires SweptOf(m, r, gone) && gid in r.games
    ensures SweptOf(m, Remove(r, gid).0, gone + {gid})
  {
    var g := m.games[gid];
    assert r.games[gid] == g;
    PeopleOfOneMore(m, gone, gid);
    MinusTwice(m.playerIndex, PlayersOf(m, gone), g.players.Keys);
    MinusTwice(m.spectatorIndex, SpectatorsOf(m, gone), g.spectators.Keys);
  }

  /**
    Removes every finished or cancelled game and returns their ids, dropping
    exactly their players' and spectators' index entries. In a consistent
    registry, afterwards the player index holds exactly the entries whose game
    survived.
   */
  method CleanupFinished(m: GameManager) returns (r: GameManager, removed: seq<string>)
    ensures Distinct(removed)
    ensures forall gid :: gid in removed <==> gid in m.games && IsTerminal(m.games[gid].status)
    ensures forall gid :: gid in r.games <==> gid in m.games && !IsTerminal(m.games[gid].status)
    ensures forall gid :: gid in r.games ==> r.games[gid] == m.games[gid]
    ensures forall gid, pid :: gid in removed && pid in m.games[gid].players ==> pid !in r.playerIndex
    ensures forall pid :: pid in r.playerIndex ==> pid in m.playerIndex && r.playerIndex[pid] == m.playerIndex[pid]
    ensures r.playerIndex == m.playerIndex - PlayersOf(m, set gid | gid in removed)
    ensures r.spectatorIndex == m.spectatorIndex - SpectatorsOf(m, set gid | gid in removed)
    ensures Indexed(m) ==> Indexed(r)
    ensures Indexed(m) ==> forall pid :: pid in r.playerIndex <==> pid in m.playerIndex && m.playerIndex[pid] in r.games
    ensures |removed| == 0 ==> r == m
  {
    removed := CollectTerminal(m);
    r := m;
    ghost var gone: set<string> := {};
    for i := 0 to |removed|
      invariant SweptOf(m, r, gone)
      invariant forall gid :: gid in gone <==> gid in removed[..i]
      invariant i == 0 ==> r == m
    {
      var gid := removed[i];
      assert gid in removed;
      DistinctNotInPrefix(removed, i);
      PrefixExtend(removed, i);
      SweepStep(m, r, gone, gid);
      r := Remove(r, gid).0;
      gone := gone + {gid};
    }
    assert removed[..|removed|] == removed;
    assert gone == set gid | gid in removed;
  }
}

=== FILE: lobby.dfy ===
/**
  Lobbies: persistent containers of at most six players from which games are
  spawned, and the registry that indexes them by id, by channel, by invite code
  and by member.
 */
module Lobbies {
  import opened Common
  import Ascii

  const MaxLobbyPlayers: nat := 6

  datatype LobbyType = Channel | Custom

  /** A player's membership record; the join timestamp is not modelled. */
  datatype LobbyMember = LobbyMember(
    playerId: int,
    userId: string,
    username: string,
    avatarUrl: Option<string>,
    isReady: bool,
    isConnected: bool)

  /** A new member: not ready, connected. */
  function NewMember(playerId: int, userId: string, username: string, avatarUrl: Option<string>): (m: LobbyMember)
    ensures m.playerId == playerId && !m.isReady && m.isConnected
  {
    LobbyMember(playerId, userId, username, avatarUrl, false, true)
  }

  datatype Lobby = Lobby(
    id: string,
    lobbyType: LobbyType,
    code: Option<string>,
    channelId: Option<string>,
    guildId: Option<string>,
    members: map<int, LobbyMember>,
    hostId: Option<int>,
    maxPlayers: nat,
    activeGameId: Option<string>)

  datatype LobbyError = Full | AlreadyMember | NotMember | NotHost | GameInProgress

  /**
    Lobby invariant: never over capacity, every member is filed under its own
    player id, and a host, when there is one, is a member.
   */
  predicate Valid(l: Lobby) {
    && |l.members| <= l.maxPlayers
    && (forall pid :: pid in l.members ==> l.members[pid].playerId == pid)
    && (l.hostId.Some? ==> l.hostId.value in l.members)
  }

  /** At capacity; a valid lobby is never over it, so a full one holds exactly `maxPlayers`. */
  predicate IsFull(l: Lobby)
    ensures Valid(l) && IsFull(l) ==> |l.members| == l.maxPlayers
  {
    |l.members| >= l.maxPlayers
  }

  /** No members at all; an empty lobby can never be all-ready. */
  predicate IsEmpty(l: Lobby)
    ensures IsEmpty(l) <==> l.members == map[]
    ensures IsEmpty(l) ==> !AllReady(l) && ReadyIds(l) == {}
  {
    |l.members| == 0
  }

  /** The lobby bound to a chat channel; its id is "channel-" followed by the channel id. */
  function NewChannel(channelId: string, guildId: Option<string>): (l: Lobby)
    ensures l.id == "channel-" + channelId && l.lobbyType == Channel
    ensures l.channelId == Some(channelId) && l.code == None
    ensures Valid(l) && IsEmpty(l) && !IsFull(l) && l.hostId == None
  {
    Lobby("channel-" + channelId, Channel, None, Some(channelId), guildId, map[], None, MaxLobbyPlayers, None)
  }

  /** A lobby joined by invite code; its id is "custom-" followed by the code. */
  function NewCustom(code: string): (l: Lobby)
    ensures l.id == "custom-" + code && l.lobbyType == Custom
    ensures l.code == Some(code) && l.channelId == None
    ensures Valid(l) && IsEmpty(l) && !IsFull(l) && l.hostId == None
  {
    Lobby("custom-" + code, Custom, Some(code), None, None, map[], None, MaxLobbyPlayers, None)
  }

  /**
    Adds a member. The capacity check comes first, then the duplicate check. The
    first member of a custom lobby becomes host; a channel lobby never gets a
    host this way.
   */
  function AddMember(l: Lobby, m: LobbyMember): (r: Result<Lobby, LobbyError>)
    ensures IsFull(l) ==> r == Err(Full)
    ensures !IsFull(l) && m.playerId in l.members ==> r == Err(AlreadyMember)
    ensures r.Ok? <==> !IsFull(l) && m.playerId !in l.members
    ensures r.Ok? ==> r.value.members == l.members[m.playerId := m] && |r.value.members| == |l.members| + 1
    ensures r.Ok? && l.hostId.None? && l.lobbyType == Custom ==> r.value.hostId == Some(m.playerId)
    ensures r.Ok? && (l.hostId.Some? || l.lobbyType == Channel) ==> r.value.hostId == l.hostId
    ensures r.Ok? ==> r.value.(members := l.members, hostId := l.hostId) == l
    ensures Valid(l) && r.Ok? ==> Valid(r.value)
  {
    if IsFull(l) then Err(Full)
    else if m.playerId in l.members then Err(AlreadyMember)
    else
      var host := if l.hostId.None? && l.lobbyType == Custom then Some(m.playerId) else l.hostId;
      Ok(l.(members := l.members[m.playerId := m], hostId := host))
  }

  /**
    Removes a member and returns it. If the host left, some remaining member
    (whichever the map yields first) becomes host, or nobody if the lobby is now
    empty. Removing a non-member changes nothing.
   */
  method RemoveMember(l: Lobby, pid: int) returns (r: Lobby, removed: Option<LobbyMember>)
    ensures removed == (if pid in l.members then Some(l.members[pid]) else None)
    ensures removed.None? ==> r == l
    ensures removed.Some? ==> r.members == l.members - {pid}
    ensures removed.Some? && l.hostId != Some(pid) ==> r.hostId == l.hostId
    ensures removed.Some? && l.hostId == Some(pid) ==>
              && (r.hostId.None? <==> r.members.Keys == {})
              && (r.hostId.Some? ==> r.hostId.value in r.members)
    ensures r.(members := l.members, hostId := l.hostId) == l
    ensures Valid(l) ==> Valid(r)
  {
    if pid !in l.members {
      return l, None;
    }
    var rest := l.members - {pid};
    var host := l.hostId;
    if l.hostId == Some(pid) {
      if rest.Keys == {} {
        host := None;
      } else {
        var next := Pick(rest.Keys);
        host := Some(next);
      }
    }
    r := l.(members := rest, hostId := host);
    removed := Some(l.members[pid]);
  }

  /** Sets a member's ready flag; a non-member is refused. */
  function SetReady(l: Lobby, pid: int, ready: bool): (r: Result<Lobby, LobbyError>)
    ensures r.Err? <==> pid !in l.members
    ensures r.Err? ==> r.error == NotMember
    ensures r.Ok? ==> r.value.members == l.members[pid := l.members[pid].(isReady := ready)]
    ensures r.Ok? ==> r.value.(members := l.members) == l
    ensures Valid(l) && r.Ok? ==> Valid(r.value)
  {
    if pid !in l.members then Err(NotMember)
    else Ok(l.(members := l.members[pid := l.members[pid].(isReady := ready)]))
  }

  /** Hands the host role to a member; a non-member is refused and the host stays. */
  function TransferHost(l: Lobby, newHost: int): (r: Result<Lobby, LobbyError>)
    ensures r.Err? <==> newHost !in l.members
    ensures r.Err? ==> r.error == NotMember
    ensures r.Ok? ==> r.value == l.(hostId := Some(newHost))
    ensures Valid(l) && r.Ok? ==> Valid(r.value)
  {
    if newHost !in l.members then Err(NotMember) else Ok(l.(hostId := Some(newHost)))
  }

  /** The members whose ready flag is set. */
  function ReadyIds(l: Lobby): (r: set<int>)
    ensures r <= l.members.Keys
    ensures forall pid :: pid in r <==> pid in l.members && l.members[pid].isReady
  {
    set pid | pid in l.members && l.members[pid].isReady
  }

  /** How many members are ready; never more than there are members. */
  function ReadyCount(l: Lobby): (r: nat)
    ensures r <= |l.members|
  {
    SubsetSize(ReadyIds(l), l.members.Keys);
    |ReadyIds(l)|
  }

  /** Not empty, and every member is ready: the ready set is then the whole roster. */
  predicate AllReady(l: Lobby)
    ensures AllReady(l) ==> ReadyIds(l) == l.members.Keys && ReadyCount(l) == |l.members|
  {
    EveryoneReady(l);
    |l.members| > 0 && forall pid :: pid in l.members ==> l.members[pid].isReady
  }

  /** When every member is ready, the ready set is the whole roster. */
  lemma EveryoneReady(l: Lobby)
    ensures (forall pid :: pid in l.members ==> l.members[pid].isReady) ==> ReadyIds(l) == l.members.Keys
  {
    if forall pid :: pid in l.members ==> l.members[pid].isReady {
      forall pid ensures pid in ReadyIds(l) <==> pid in l.members.Keys { }
    }
  }

  /** All ready exactly when the lobby is non-empty and the ready count is the member count. */
  lemma AllReadyIffCount(l: Lobby)
    ensures AllReady(l) <==> |l.members| > 0 && ReadyCount(l) == |l.members|
  {
    if |l.members| > 0 && ReadyCount(l) == |l.members| {
      SubsetSameSize(ReadyIds(l), l.members.Keys);
    }
    if AllReady(l) {
      forall pid ensures pid in ReadyIds(l) <==> pid in l.members.Keys { }
      assert ReadyIds(l) == l.members.Keys;
    }
  }

  /**
    A custom lobby: the first member becomes host and the second does not; the
    ready count climbs to two and only then are all ready.
   */
  lemma CustomLobbyScenario(p1: LobbyMember, p2: LobbyMember)
    requires p1 == NewMember(1, "1000", "P1", None) && p2 == NewMember(2, "2000", "P2", None)
    ensures var l1 := AddMember(NewCustom("ABC123"), p1);
            && l1.Ok? && l1.value.hostId == Some(1)
            && var l2 := AddMember(l1.value, p2);
            && l2.Ok? && l2.value.hostId == Some(1) && |l2.value.members| == 2
            && !AllReady(l2.value) && ReadyCount(l2.value) == 0
            && var l3 := SetReady(l2.value, 1, true);
            && l3.Ok? && ReadyCount(l3.value) == 1 && !AllReady(l3.value)
            && var l4 := SetReady(l3.value, 2, true);
            && l4.Ok? && AllReady(l4.value) && ReadyCount(l4.value) == 2
  {
    var l2 := AddMember(AddMember(NewCustom("ABC123"), p1).value, p2).value;
    assert ReadyIds(l2) == {};
    var l3 := SetReady(l2, 1, true).value;
    assert ReadyIds(l3) == {1};
    var l4 := SetReady(l3, 2, true).value;
    assert ReadyIds(l4) == {1, 2};
  }

  /** Whatever the lobby holds, a full lobby refuses any newcomer with `Full`. */
  lemma FullLobbyRefuses(l: Lobby, m: LobbyMember)
    requires Valid(l) && |l.members| == l.maxPlayers
    ensures AddMember(l, m) == Err(Full)
  {
  }

  // ---------------------------------------------------------------------------
  // The registry

  datatype Manager = Manager(
    lobbies: map<string, Lobby>,
    channelIndex: map<string, string>,
    codeIndex: map<string, string>,
    playerIndex: map<int, string>)

  function EmptyManager(): (m: Manager)
    ensures Indexed(m) && AllValid(m)
  {
    Manager(map[], map[], map[], map[])
  }

  /** Every lobby is valid and is filed under its own id. */
  predicate AllValid(m: Manager) {
    forall lid :: lid in m.lobbies ==> Valid(m.lobbies[lid]) && m.lobbies[lid].id == lid
  }

  /**
    The player index and the memberships agree: an indexed player is a member of
    the lobby it is indexed to, and every member is indexed to its lobby.
   */
  predicate Indexed(m: Manager) {
    && (forall pid :: pid in m.playerIndex ==>
          m.playerIndex[pid] in m.lobbies && pid in m.lobbies[m.playerIndex[pid]].members)
    && (forall lid, pid :: lid in m.lobbies && pid in m.lobbies[lid].members ==>
          pid in m.playerIndex && m.playerIndex[pid] == lid)
  }

  /** Stores a lobby under its id and indexes its channel and its code, when it has them. */
  function Add(m: Manager, l: Lobby): (r: Manager)
    ensures r.lobbies == m.lobbies[l.id := l]
    ensures l.channelId.Some? ==> r.channelIndex == m.channelIndex[l.channelId.value := l.id]
    ensures l.channelId.None? ==> r.channelIndex == m.channelIndex
    ensures l.code.Some? ==> r.codeIndex == m.codeIndex[l.code.value := l.id]
    ensures l.code.None? ==> r.codeIndex == m.codeIndex
    ensures r.playerIndex == m.playerIndex
    ensures Indexed(m) && l.id !in m.lobbies && IsEmpty(l) ==> Indexed(r)
    ensures AllValid(m) && Valid(l) ==> AllValid(r)
  {
    var channels := if l.channelId.Some? then m.channelIndex[l.channelId.value := l.id] else m.channelIndex;
    var codes := if l.code.Some? then m.codeIndex[l.code.value := l.id] else m.codeIndex;
    Manager(m.lobbies[l.id := l], channels, codes, m.playerIndex)
  }

  function Get(m: Manager, lobbyId: string): (r: Option<Lobby>)
    ensures r.Some? <==> lobbyId in m.lobbies
    ensures r.Some? ==> r.value == m.lobbies[lobbyId]
  {
    if lobbyId in m.lobbies then Some(m.lobbies[lobbyId]) else None
  }

  /** The lobby a player is indexed to, if the index entry and the lobby both exist. */
  function GetForPlayer(m: Manager, pid: int): (r: Option<Lobby>)
    ensures r.Some? <==> pid in m.playerIndex && m.playerIndex[pid] in m.lobbies
    ensures r.Some? ==> r.value == m.lobbies[m.playerIndex[pid]]
  {
    if pid in m.playerIndex then Get(m, m.playerIndex[pid]) else None
  }

  /** Looks a lobby up by invite code after upper-casing the code given. */
  function GetByCode(m: Manager, code: string): (r: Option<Lobby>)
    ensures r.Some? <==> Ascii.Upper(code) in m.codeIndex && m.codeIndex[Ascii.Upper(code)] in m.lobbies
    ensures r.Some? ==> r.value == m.lobbies[m.codeIndex[Ascii.Upper(code)]]
  {
    var key := Ascii.Upper(code);
    if key in m.codeIndex then Get(m, m.codeIndex[key]) else None
  }

  /** Code lookup ignores the case of the code given. */
  lemma GetByCodeIgnoresCase(m: Manager, code: string)
    ensures GetByCode(m, Ascii.Lower(code)) == GetByCode(m, code)
    ensures GetByCode(m, Ascii.Upper(code)) == GetByCode(m, code)
  {
    Ascii.UpperOfLower(code);
    Ascii.UpperIdempotent(code);
  }

  /**
    A code is indexed as given but looked up upper-cased, so an index entry whose
    code holds a lower-case letter is never found by any lookup.
   */
  lemma LowerCaseCodeUnreachable(code: string, query: string)
    requires exists i :: 0 <= i < |code| && Ascii.IsLower(code[i])
    ensures Ascii.Upper(query) != code
  {
    var i :| 0 <= i < |code| && Ascii.IsLower(code[i]);
    if |Ascii.Upper(query)| == |code| {
      assert !Ascii.IsLower(Ascii.Upper(query)[i]);
    }
  }

  /** A custom lobby added with an upper-case code is found under that code in any case. */
  lemma CustomLobbyByCode(m: Manager, query: string)
    requires Ascii.Upper(query) == "ABC123"
    ensures GetByCode(Add(m, NewCustom("ABC123")), query) == Some(NewCustom("ABC123"))
    ensures GetByCode(Add(m, NewCustom("ABC123")), "ABC123") == Some(NewCustom("ABC123"))
  {
    assert Ascii.Upper("ABC123") == "ABC123";
  }

  /**
    Returns the channel's lobby id, creating and adding the lobby first when the
    channel is not indexed. The Rust implementation unwraps the lookup of an indexed channel's
    lobby, so an index entry must point at an existing lobby.
   */
  function FindOrCreateChannel(m: Manager, channelId: string, guildId: Option<string>): (r: (Manager, string))
    requires channelId in m.channelIndex ==> m.channelIndex[channelId] in m.lobbies
    ensures r.1 in r.0.lobbies && channelId in r.0.channelIndex && r.0.channelIndex[channelId] == r.1
    ensures channelId in m.channelIndex ==> r == (m, m.channelIndex[channelId])
    ensures channelId !in m.channelIndex ==>
              r.1 == "channel-" + channelId && r.0 == Add(m, NewChannel(channelId, guildId))
  {
    if channelId in m.channelIndex then
      (m, m.channelIndex[channelId])
    else
      var l := NewChannel(channelId, guildId);
      (Add(m, l), l.id)
  }

  /** Finding a channel's lobby a second time finds the same lobby and changes nothing. */
  lemma FindOrCreateChannelIdempotent(m: Manager, channelId: string, g1: Option<string>, g2: Option<string>)
    requires channelId in m.channelIndex ==> m.channelIndex[channelId] in m.lobbies
    ensures var (m1, id1) := FindOrCreateChannel(m, channelId, g1);
            FindOrCreateChannel(m1, channelId, g2) == (m1, id1)
  {
  }

  /**
    Puts a player into a lobby. A player already indexed to a lobby is refused
    with `AlreadyMember`, an unknown lobby with `NotMember`; otherwise the lobby's
    own refusal is passed on. Only success touches the player index.
   */
  function AddPlayer(m: Manager, lobbyId: string, member: LobbyMember): (r: Result<Manager, LobbyError>)
    ensures member.playerId in m.playerIndex ==> r == Err(AlreadyMember)
    ensures member.playerId !in m.playerIndex && lobbyId !in m.lobbies ==> r == Err(NotMember)
    ensures member.playerId !in m.playerIndex && lobbyId in m.lobbies ==>
              && (r.Ok? <==> AddMember(m.lobbies[lobbyId], member).Ok?)
              && (r.Err? ==> r == Err(AddMember(m.lobbies[lobbyId], member).error))
    ensures r.Ok? ==> && lobbyId in m.lobbies
                      && r.value.playerIndex == m.playerIndex[member.playerId := lobbyId]
                      && r.value.lobbies == m.lobbies[lobbyId := AddMember(m.lobbies[lobbyId], member).value]
                      && r.value.channelIndex == m.channelIndex && r.value.codeIndex == m.codeIndex
    ensures r.Ok? ==> GetForPlayer(r.value, member.playerId) == Some(r.value.lobbies[lobbyId])
    ensures Indexed(m) && r.Ok? ==> Indexed(r.value)
    ensures AllValid(m) && r.Ok? ==> AllValid(r.value)
  {
    if member.playerId in m.playerIndex then Err(AlreadyMember)
    else if lobbyId !in m.lobbies then Err(NotMember)
    else
      match AddMember(m.lobbies[lobbyId], member)
      case Err(e) => Err(e)
      case Ok(l) => Ok(m.(lobbies := m.lobbies[lobbyId := l], playerIndex := m.playerIndex[member.playerId := lobbyId]))
  }

  /**
    Takes a player out of the lobby it is indexed to and returns that lobby's id
    and the member record. The index entry is dropped first, so it goes even when
    the lobby or the membership is missing.
   */
  method RemovePlayer(m: Manager, pid: int) returns (r: Manager, out: Option<(string, LobbyMember)>)
    ensures r.playerIndex == m.playerIndex - {pid}
    ensures out.Some? <==> pid in m.playerIndex && m.playerIndex[pid] in m.lobbies
                           && pid in m.lobbies[m.playerIndex[pid]].members
    ensures out.Some? ==> && out.value.0 == m.playerIndex[pid]
                          && out.value.1 == m.lobbies[out.value.0].members[pid]
                          && r.lobbies.Keys == m.lobbies.Keys
                          && r.lobbies[out.value.0].members == m.lobbies[out.value.0].members - {pid}
                          && forall lid :: lid in m.lobbies && lid != out.value.0 ==> r.lobbies[lid] == m.lobbies[lid]
    ensures out.Some? ==> var before, after := m.lobbies[out.value.0], r.lobbies[out.value.0];
                          && after.(members := before.members, hostId := before.hostId) == before
                          && (before.hostId != Some(pid) ==> after.hostId == before.hostId)
                          && (before.hostId == Some(pid) ==>
                                && (after.hostId.None? <==> after.members.Keys == {})
                                && (after.hostId.Some? ==> after.hostId.value in after.members))
    ensures out.None? ==> r.lobbies == m.lobbies
    ensures r.channelIndex == m.channelIndex && r.codeIndex == m.codeIndex
    ensures Indexed(m) ==> Indexed(r)
    ensures AllValid(m) ==> AllValid(r)
  {
    r := m.(playerIndex := m.playerIndex - {pid});
    out := None;
    if pid in m.playerIndex && m.playerIndex[pid] in m.lobbies {
      var lid := m.playerIndex[pid];
      var l, removed := RemoveMember(m.lobbies[lid], pid);
      if removed.Some? {
        r := r.(lobbies := m.lobbies[lid := l]);
        out := Some((lid, removed.value));
        if Indexed(m) {
          UnindexMember(m, pid, l);
        }
      }
    }
  }

  /**
    Dropping an indexed player from both the index and its lobby's members keeps
    an index that was in step with the memberships in step.
   */
  lemma UnindexMember(m: Manager, pid: int, l: Lobby)
    requires pid in m.playerIndex && m.playerIndex[pid] in m.lobbies
    requires l.members == m.lobbies[m.playerIndex[pid]].members - {pid}
    requires l.id == m.lobbies[m.playerIndex[pid]].id
    requires Indexed(m)
    ensures Indexed(m.(lobbies := m.lobbies[m.playerIndex[pid] := l], playerIndex := m.playerIndex - {pid}))
  {
    var lid := m.playerIndex[pid];
    var r := m.(lobbies := m.lobbies[lid := l], playerIndex := m.playerIndex - {pid});
    {
      forall q | q in r.playerIndex
        ensures r.playerIndex[q] in r.lobbies && q in r.lobbies[r.playerIndex[q]].members
      {
        assert q != pid && r.playerIndex[q] == m.playerIndex[q];
      }
      forall k, q | k in r.lobbies && q in r.lobbies[k].members
        ensures q in r.playerIndex && r.playerIndex[q] == k
      {
        if k == lid {
          assert q in l.members && q != pid;
          assert q in m.lobbies[lid].members;
        } else {
          assert r.lobbies[k] == m.lobbies[k];
          assert m.playerIndex[q] == k;
          assert q != pid;
        }
      }
    }
  }

  /**
    Removes a lobby and its index entries: its channel, its code (as stored) and
    the player entries of all its members.
   */
  function Remove(m: Manager, lobbyId: string): (r: (Manager, Option<Lobby>))
    ensures r.1 == Get(m, lobbyId)
    ensures r.0.lobbies == m.lobbies - {lobbyId}
    ensures r.1.None? ==> r.0 == m
    ensures r.1.Some? ==> r.0.playerIndex == m.playerIndex - r.1.value.members.Keys
    ensures r.1.Some? && r.1.value.channelId.Some? ==> r.0.channelIndex == m.channelIndex - {r.1.value.channelId.value}
    ensures r.1.Some? && r.1.value.code.Some? ==> r.0.codeIndex == m.codeIndex - {r.1.value.code.value}
    ensures r.1.Some? && r.1.value.channelId.None? ==> r.0.channelIndex == m.channelIndex
    ensures r.1.Some? && r.1.value.code.None? ==> r.0.codeIndex == m.codeIndex
    ensures Indexed(m) ==> Indexed(r.0) && forall pid :: pid in r.0.playerIndex ==> r.0.playerIndex[pid] != lobbyId
    ensures AllValid(m) ==> AllValid(r.0)
  {
    if lobbyId !in m.lobbies then (m, None)
    else
      var l := m.lobbies[lobbyId];
      var channels := if l.channelId.Some? then m.channelIndex - {l.channelId.value} else m.channelIndex;
      var codes := if l.code.Some? then m.codeIndex - {l.code.value} else m.codeIndex;
      RemoveKeepsIndexed(m, lobbyId);
      (Manager(m.lobbies - {lobbyId}, channels, codes, m.playerIndex - l.members.Keys), Some(l))
  }

  /** Dropping a lobby together with its members' player entries keeps the player index in step. */
  lemma RemoveKeepsIndexed(m: Manager, lobbyId: string)
    requires lobbyId in m.lobbies
    ensures var r := m.(lobbies := m.lobbies - {lobbyId},
                        playerIndex := m.playerIndex - m.lobbies[lobbyId].members.Keys);
            Indexed(m) ==> Indexed(r) && forall pid :: pid in r.playerIndex ==> r.playerIndex[pid] != lobbyId
  {
    var gone := m.lobbies[lobbyId].members.Keys;
    var r := m.(lobbies := m.lobbies - {lobbyId}, playerIndex := m.playerIndex - gone);
    if Indexed(m) {
      forall lid, pid | lid in r.lobbies && pid in r.lobbies[lid].members
        ensures pid in r.playerIndex && r.playerIndex[pid] == lid
      {
        assert m.playerIndex[pid] == lid;
      }
    }
  }

  /** The ids of the empty lobbies. */
  function EmptyIds(m: Manager): set<string> {
    set lid | lid in m.lobbies && IsEmpty(m.lobbies[lid])
  }

  /** The empty lobbies' ids, each once, in the map's arbitrary iteration order. */
  method CollectEmpty(m: Manager) returns (empty: seq<string>)
    ensures Distinct(empty)
    ensures forall lid :: lid in empty <==> lid in EmptyIds(m)
  {
    var remaining := m.lobbies.Keys;
    empty := [];
    while remaining != {}
      invariant remaining <= m.lobbies.Keys
      invariant Distinct(empty)
      invariant forall lid :: lid in empty <==> lid in EmptyIds(m) && lid !in remaining
      decreases |remaining|
    {
      var lid := Pick(remaining);
      if IsEmpty(m.lobbies[lid]) {
        empty := empty + [lid];
      }
      remaining := remaining - {lid};
    }
  }

  /** The channel keys of the stored lobbies among `gone`. */
  ghost function ChannelsOf(m: Manager, gone: set<string>): set<string> {
    set lid | lid in gone && lid in m.lobbies && m.lobbies[lid].channelId.Some? :: m.lobbies[lid].channelId.value
  }

  /** The invite codes, as stored, of the stored lobbies among `gone`. */
  ghost function CodesOf(m: Manager, gone: set<string>): set<string> {
    set lid | lid in gone && lid in m.lobbies && m.lobbies[lid].code.Some? :: m.lobbies[lid].code.value
  }

  /** The channel key of one lobby, if it has one. */
  function ChannelKey(l: Lobby): set<string> {
    if l.channelId.Some? then {l.channelId.value} else {}
  }

  /** The invite code of one lobby, if it has one. */
  function CodeKey(l: Lobby): set<string> {
    if l.code.Some? then {l.code.value} else {}
  }

  /** Adding a lobby to `gone` adds its channel and code keys. */
  lemma KeysOfOneMore(m: Manager, gone: set<string>, lid: string)
    requires lid in m.lobbies
    ensures ChannelsOf(m, gone + {lid}) == ChannelsOf(m, gone) + ChannelKey(m.lobbies[lid])
    ensures CodesOf(m, gone + {lid}) == CodesOf(m, gone) + CodeKey(m.lobbies[lid])
  {
    var l := m.lobbies[lid];
    if l.channelId.Some? {
      assert l.channelId.value in ChannelsOf(m, gone + {lid});
    }
    if l.code.Some? {
      assert l.code.value in CodesOf(m, gone + {lid});
    }
  }

  /**
    What removing the lobbies `gone` from `m` leaves in `r`: the other lobbies
    untouched, the player index as it was, and exactly the removed lobbies'
    channel and code entries dropped.
   */
  ghost predicate SweptOf(m: Manager, r: Manager, gone: set<string>) {
    && (forall lid :: lid in r.lobbies <==> lid in m.lobbies && lid !in gone)
    && (forall lid :: lid in r.lobbies ==> r.lobbies[lid] == m.lobbies[lid])
    && r.playerIndex == m.playerIndex
    && r.channelIndex == m.channelIndex - ChannelsOf(m, gone)
    && r.codeIndex == m.codeIndex - CodesOf(m, gone)
    && (Indexed(m) ==> Indexed(r))
    && (AllValid(m) ==> AllValid(r))
  }

  /**
    Removing an empty lobby drops just that lobby with its channel and code
    entries; no player entry goes.
   */
  lemma RemoveEmpty(r: Manager, lid: string)
    requires lid in r.lobbies && IsEmpty(r.lobbies[lid])
    ensures var r2 := Remove(r, lid).0;
            && r2.lobbies == r.lobbies - {lid}
            && r2.playerIndex == r.playerIndex
            && r2.channelIndex == r.channelIndex - ChannelKey(r.lobbies[lid])
            && r2.codeIndex == r.codeIndex - CodeKey(r.lobbies[lid])
            && (Indexed(r) ==> Indexed(r2))
            && (AllValid(r) ==> AllValid(r2))
  {
    assert r.lobbies[lid].members.Keys == {};
  }

  /** Removing one more empty lobby extends a sweep by that lobby. */
  lemma SweepStep(m: Manager, r: Manager, gone: set<string>, lid: string)
    requires SweptOf(m, r, gone) && lid in r.lobbies && IsEmpty(r.lobbies[lid])
    ensures SweptOf(m, Remove(r, lid).0, gone + {lid})
  {
    var r2 := Remove(r, lid).0;
    var l := m.lobbies[lid];
    RemoveEmpty(r, lid);
    KeysOfOneMore(m, gone, lid);
    assert r.lobbies[lid] == l;
    assert r2.channelIndex == m.channelIndex - ChannelsOf(m, gone + {lid}) by {
      MinusTwice(m.channelIndex, ChannelsOf(m, gone), ChannelKey(l));
    }
    assert r2.codeIndex == m.codeIndex - CodesOf(m, gone + {lid}) by {
      MinusTwice(m.codeIndex, CodesOf(m, gone), CodeKey(l));
    }
  }

  /**
    Removes every empty lobby and returns their ids. No player entry goes, since
    an empty lobby has no members; exactly the removed lobbies' channel and code
    entries go.
   */
  method CleanupEmpty(m: Manager) returns (r: Manager, removed: seq<string>)
    ensures Distinct(removed)
    ensures forall lid :: lid in removed <==> lid in m.lobbies && IsEmpty(m.lobbies[lid])
    ensures forall lid :: lid in r.lobbies <==> lid in m.lobbies && !IsEmpty(m.lobbies[lid])
    ensures forall lid :: lid in r.lobbies ==> r.lobbies[lid] == m.lobbies[lid]
    ensures r.playerIndex == m.playerIndex
    ensures r.channelIndex == m.channelIndex - ChannelsOf(m, set lid | lid in removed)
    ensures r.codeIndex == m.codeIndex - CodesOf(m, set lid | lid in removed)
    ensures Indexed(m) ==> Indexed(r)
    ensures AllValid(m) ==> AllValid(r)
    ensures |removed| == 0 ==> r == m
  {
    removed := CollectEmpty(m);
    r := m;
    ghost var gone: set<string> := {};
    for i := 0 to |removed|
      invariant SweptOf(m, r, gone)
      invariant forall lid :: lid in gone <==> lid in removed[..i]
      invariant i == 0 ==> r == m
    {
      var lid := removed[i];
      assert lid in removed;
      DistinctNotInPrefix(removed, i);
      PrefixExtend(removed, i);
      SweepStep(m, r, gone, lid);
      r := Remove(r, lid).0;
      gone := gone + {lid};
    }
    assert removed[..|removed|] == removed;
    SweepDone(m, r, gone, removed);
  }

  /** A sweep of exactly the listed empty lobbies leaves exactly the non-empty ones. */
  lemma SweepDone(m: Manager, r: Manager, gone: set<string>, removed: seq<string>)
    requires SweptOf(m, r, gone)
    requires forall lid :: lid in gone <==> lid in removed
    requires forall lid :: lid in removed <==> lid in m.lobbies && IsEmpty(m.lobbies[lid])
    ensures forall lid :: lid in r.lobbies <==> lid in m.lobbies && !IsEmpty(m.lobbies[lid])
    ensures r.channelIndex == m.channelIndex - ChannelsOf(m, set lid | lid in removed)
    ensures r.codeIndex == m.codeIndex - CodesOf(m, set lid | lid in removed)
  {
    assert gone == set lid | lid in removed;
  }
}

=== FILE: player.dfy ===
/**
  The player location state machine: the single authoritative place of a player
  (disconnected, connected, in a lobby, playing, spectating) and the events that
  move it. Lobby and game ids are opaque strings that this machine never checks.
 */
module Player {
  import opened Common

  datatype Location =
    | Disconnected
    | Connected
    | InLobby(lobbyId: string)
    | InGame(lobbyId: string, gameId: string)
    | Spectating(lobbyId: string, gameId: string)

  datatype Event =
    | Connect
    | Disconnect
    | JoinLobby(lobbyId: string)
    | LeaveLobby
    | StartGame(gameId: string)
    | JoinGame(gameId: string)
    | SpectateGame(gameId: string)
    | LeaveGame
    | BecomePlayer
    | BecomeSpectator

  /** A rejected event: the location it was rejected from, the event, and a fixed reason text. */
  datatype InvalidTransition = InvalidTransition(from: Location, event: Event, reason: string)

  /** The per-player state machine; its only state is the current location. */
  datatype PlayerState = PlayerState(location: Location)

  /** Prefix of the placeholder lobby id used when spectating without a lobby. */
  const SpectatePrefix: string := "spectate-"

  // ---------------------------------------------------------------------------
  // Location predicates and accessors

  /** Connected exactly when `Disconnect` is accepted, and exactly when `Connect` is refused. */
  predicate IsConnected(l: Location)
    ensures IsConnected(l) <==> Transition(l, Disconnect).Ok?
    ensures IsConnected(l) <==> Transition(l, Connect).Err?
  {
    !l.Disconnected?
  }

  predicate IsInLobby(l: Location)
    ensures IsInLobby(l) ==> IsConnected(l)
  {
    l.InLobby? || l.InGame? || l.Spectating?
  }

  /** Playing or spectating; both also count as being in the game's lobby. */
  predicate IsInGame(l: Location)
    ensures IsInGame(l) ==> IsInLobby(l)
  {
    l.InGame? || l.Spectating?
  }

  predicate IsPlaying(l: Location)
    ensures IsPlaying(l) ==> IsInGame(l) && !IsSpectating(l)
  {
    l.InGame?
  }

  predicate IsSpectating(l: Location)
    ensures IsSpectating(l) ==> IsInGame(l)
  {
    l.Spectating?
  }

  /** The lobby id, present exactly when the player is in a lobby. */
  function LobbyIdOf(l: Location): (r: Option<string>)
    ensures r.Some? <==> IsInLobby(l)
    ensures r.Some? ==> r.value == l.lobbyId
  {
    match l
    case InLobby(id) => Some(id)
    case InGame(id, _) => Some(id)
    case Spectating(id, _) => Some(id)
    case _ => None
  }

  /** The game id, present exactly when the player is playing or spectating. */
  function GameIdOf(l: Location): (r: Option<string>)
    ensures r.Some? <==> IsInGame(l)
    ensures r.Some? ==> r.value == l.gameId
  {
    match l
    case InGame(_, id) => Some(id)
    case Spectating(_, id) => Some(id)
    case _ => None
  }

  // ---------------------------------------------------------------------------
  // The transition table

  /**
    The legal moves, one disjunct per row of the transition table. Every
    (location, event) pair not covered here is rejected.
   */
  predicate Step(from: Location, e: Event, to: Location) {
    || (from == Disconnected && e == Connect && to == Connected)
    || (from != Disconnected && e == Disconnect && to == Disconnected)
    || (from == Connected && e.JoinLobby? && to == InLobby(e.lobbyId))
    || (from.InLobby? && e == LeaveLobby && to == Connected)
    || (from.InLobby? && (e.StartGame? || e.JoinGame?) && to == InGame(from.lobbyId, e.gameId))
    || (from.Spectating? && e.JoinGame? && to == InGame(from.lobbyId, e.gameId))
    || (from.Spectating? && e == BecomePlayer && to == InGame(from.lobbyId, from.gameId))
    || ((from.InGame? || from.Spectating?) && e == LeaveGame && to == InLobby(from.lobbyId))
    || (from.InGame? && e == BecomeSpectator && to == Spectating(from.lobbyId, from.gameId))
    || (from.InLobby? && e.SpectateGame? && to == Spectating(from.lobbyId, e.gameId))
    || (from == Connected && e.SpectateGame? && to == Spectating(SpectatePrefix + e.gameId, e.gameId))
  }

  function Reject(loc: Location, e: Event, reason: string): Result<Location, InvalidTransition> {
    Err(InvalidTransition(loc, e, reason))
  }

  /**
    The new location for an event, or the rejection. Total over all 5 x 10
    pairs; the arms are tried in the order the Rust implementation lists them.
   */
  function Transition(loc: Location, e: Event): (r: Result<Location, InvalidTransition>)
    ensures r.Err? ==> r.error.from == loc && r.error.event == e
    ensures forall t :: Step(loc, e, t) <==> r == Ok(t)
  {
    match e
    case Connect =>
      if loc.Disconnected? then Ok(Connected) else Reject(loc, e, "Already connected")
    case Disconnect =>
      if loc.Disconnected? then Reject(loc, e, "Already disconnected") else Ok(Disconnected)
    case JoinLobby(lobbyId) =>
      (match loc
       case Connected => Ok(InLobby(lobbyId))
       case InLobby(_) => Reject(loc, e, "Already in a lobby")
       case InGame(_, _) => Reject(loc, e, "Must leave game first")
       case Spectating(_, _) => Reject(loc, e, "Must leave game first")
       case Disconnected => Reject(loc, e, "Must connect first"))
    case LeaveLobby =>
      (match loc
       case InLobby(_) => Ok(Connected)
       case InGame(_, _) => Reject(loc, e, "Must leave game first")
       case Spectating(_, _) => Reject(loc, e, "Must leave game first")
       case _ => Reject(loc, e, "Not in a lobby"))
    case StartGame(gameId) =>
      (match loc
       case InLobby(lobbyId) => Ok(InGame(lobbyId, gameId))
       case InGame(_, _) => Reject(loc, e, "Already in a game")
       case _ => Reject(loc, e, "Must be in a lobby to start a game"))
    case JoinGame(gameId) =>
      (match loc
       case InLobby(lobbyId) => Ok(InGame(lobbyId, gameId))
       case Spectating(lobbyId, _) => Ok(InGame(lobbyId, gameId))
       case InGame(_, _) => Reject(loc, e, "Already playing")
       case _ => Reject(loc, e, "Must be in lobby or spectating"))
    case SpectateGame(gameId) =>
      (match loc
       case InLobby(lobbyId) => Ok(Spectating(lobbyId, gameId))
       case Connected => Ok(Spectating(SpectatePrefix + gameId, gameId))
       case InGame(_, _) => Reject(loc, e, "Already in a game")
       case Spectating(_, _) => Reject(loc, e, "Already spectating")
       case Disconnected => Reject(loc, e, "Must connect first"))
    case LeaveGame =>
      (match loc
       case InGame(lobbyId, _) => Ok(InLobby(lobbyId))
       case Spectating(lobbyId, _) => Ok(InLobby(lobbyId))
       case _ => Reject(loc, e, "Not in a game"))
    case BecomePlayer =>
      (match loc
       case Spectating(lobbyId, gameId) => Ok(InGame(lobbyId, gameId))
       case InGame(_, _) => Reject(loc, e, "Already a player")
       case _ => Reject(loc, e, "Must be spectating"))
    case BecomeSpectator =>
      (match loc
       case InGame(lobbyId, gameId) => Ok(Spectating(lobbyId, gameId))
       case Spectating(_, _) => Reject(loc, e, "Already spectating")
       case _ => Reject(loc, e, "Must be in a game"))
  }

  // ---------------------------------------------------------------------------
  // PlayerState

  /** A fresh player state: disconnected, in no lobby and no game. */
  function NewState(): (s: PlayerState)
    ensures !IsConnected(s.location)
    ensures LobbyIdOf(s.location).None? && GameIdOf(s.location).None?
  {
    PlayerState(Disconnected)
  }

  /** A player state restored at a given location. */
  function At(l: Location): (s: PlayerState)
    ensures s.location == l
    ensures l == Disconnected ==> s == NewState()
  {
    PlayerState(l)
  }

  /** Applies an event, giving the new state or the rejection. */
  function Apply(s: PlayerState, e: Event): (r: Result<PlayerState, InvalidTransition>)
    ensures r.Ok? ==> Step(s.location, e, r.value.location)
    ensures r.Err? ==> r.error.from == s.location && r.error.event == e
    ensures r.Err? ==> forall t :: !Step(s.location, e, t)
  {
    match Transition(s.location, e)
    case Ok(l) => Ok(PlayerState(l))
    case Err(err) => Err(err)
  }

  /**
    Applies an event in place: the state after the call and the outcome. A
    rejected event leaves the state exactly as it was.
   */
  function ApplyMut(s: PlayerState, e: Event): (r: (PlayerState, Outcome<InvalidTransition>))
    ensures r.1.Fail? ==> r.0 == s && r.1.error.from == s.location && r.1.error.event == e
    ensures r.1.Pass? <==> Apply(s, e).Ok?
    ensures r.1.Pass? ==> Step(s.location, e, r.0.location) && Apply(s, e) == Ok(r.0)
  {
    match Transition(s.location, e)
    case Ok(l) => (PlayerState(l), Pass)
    case Err(err) => (s, Fail(err))
  }

  // ---------------------------------------------------------------------------
  // Properties

  /** `Connect` succeeds only from `Disconnected`, and then yields `Connected`. */
  lemma ConnectRule(l: Location)
    ensures Transition(l, Connect).Ok? <==> l == Disconnected
    ensures Transition(l, Connect).Ok? ==> Transition(l, Connect).value == Connected
  {
  }

  /** `Disconnect` is rejected only from `Disconnected`; from anywhere else it yields `Disconnected`. */
  lemma DisconnectRule(l: Location)
    ensures Transition(l, Disconnect).Err? <==> l == Disconnected
    ensures Transition(l, Disconnect).Ok? ==> Transition(l, Disconnect).value == Disconnected
  {
  }

  /** Whatever the state, applying `Disconnect` in place ends at `Disconnected`. */
  lemma DisconnectAlwaysLands(s: PlayerState)
    ensures ApplyMut(s, Disconnect).0.location == Disconnected
  {
    if s.location != Disconnected {
      assert Step(s.location, Disconnect, Disconnected);
    }
  }

  /**
    Moving into, out of, or between playing and spectating keeps the lobby;
    switching between playing and spectating keeps the game as well.
   */
  lemma IdsPreserved(l: Location, e: Event)
    requires Transition(l, e).Ok?
    ensures e.StartGame? || e == LeaveGame || e == BecomePlayer || e == BecomeSpectator
            ==> LobbyIdOf(Transition(l, e).value) == LobbyIdOf(l)
    ensures e == BecomePlayer || e == BecomeSpectator
            ==> GameIdOf(Transition(l, e).value) == GameIdOf(l)
  {
  }

  /** Spectating straight from `Connected` synthesizes the lobby id "spectate-" + game id. */
  lemma SpectateFromConnected(g: string)
    ensures Transition(Connected, SpectateGame(g)) == Ok(Spectating("spectate-" + g, g))
  {
  }

  /** Joining a game while spectating takes the event's game id, not the spectated one. */
  lemma JoinGameFromSpectatingUsesEventGame(lobby: string, watched: string, g: string)
    ensures Transition(Spectating(lobby, watched), JoinGame(g)) == Ok(InGame(lobby, g))
  {
  }

  /** Applies events in turn, stopping at the first rejection. */
  function Run(s: PlayerState, events: seq<Event>): Result<PlayerState, InvalidTransition>
    decreases |events|
  {
    if events == [] then Ok(s)
    else match Apply(s, events[0])
      case Ok(next) => Run(next, events[1..])
      case Err(err) => Err(err)
  }

  /**
    Connect, join "lobby-1", start "game-1" reaches InGame(lobby-1, game-1);
    leaving the game returns to the lobby; a second JoinLobby from the lobby is
    rejected with "Already in a lobby" and leaves the location unchanged.
   */
  lemma LobbyGameScenario()
    ensures Run(NewState(), [Connect, JoinLobby("lobby-1"), StartGame("game-1")])
            == Ok(PlayerState(InGame("lobby-1", "game-1")))
    ensures Apply(PlayerState(InGame("lobby-1", "game-1")), LeaveGame) == Ok(PlayerState(InLobby("lobby-1")))
    ensures ApplyMut(PlayerState(InLobby("lobby-1")), JoinLobby("lobby-2"))
            == (PlayerState(InLobby("lobby-1")),
                Fail(InvalidTransition(InLobby("lobby-1"), JoinLobby("lobby-2"), "Already in a lobby")))
  {
    var s1 := PlayerState(Connected);
    var s2 := PlayerState(InLobby("lobby-1"));
    assert Apply(NewState(), Connect) == Ok(s1);
    assert Apply(s1, JoinLobby("lobby-1")) == Ok(s2);
    assert Apply(s2, StartGame("game-1")) == Ok(PlayerState(InGame("lobby-1", "game-1")));
    assert [Connect, JoinLobby("lobby-1"), StartGame("game-1")][1..] == [JoinLobby("lobby-1"), StartGame("game-1")];
    assert [JoinLobby("lobby-1"), StartGame("game-1")][1..] == [StartGame("game-1")];
  }
}
